=== FILE: README.md ===
# auditlinks in Dafny

A model of the link-testing core of `auditlinks.py`. The tool audits the external links of a MediaWiki wiki and works in these steps:

- It deduplicates the links of all pages.
- It sorts the links into three classes:
  - special links, such as `localhost` and non-global or multicast IP addresses;
  - invalid URLs;
  - candidates, grouped into one FIFO queue per host. The host key is the registered domain, or the IP literal itself.
- It tests the candidates in rate-limited waves. Between the tests of two links of the same host it waits at least `--wait-time` seconds.
- It sorts each tested link into the "broken" map or the "no HTTPS" map, or into neither.
- After every probe it rewrites each MediaWiki result file whose map is non-empty. Each file has one section per page that has a finding.

Modules:

- `Options` (option.dfy): `Option<T>`.
- `Numbers` (numbers.dfy): how Python prints a status code in decimal, and the parser that reads it back.
- `StableSort` (stable_sort.dfy): `list.sort(key=..., reverse=True)`. This is a stable sort by descending weight, written as an insertion sort on sequences.
- `Probe` (probe.dfy):
  - the `TestResult` enum, as a tagged union;
  - the request chain that picks a result from the outcome of the first request and, after a 200 on a plain `http` link, the outcome of the `https` request;
  - the reason text stored for each result, and which map it goes to;
  - a reader that recovers the result from a stored finding.
- `Links` (links.dfy): sorting the links into the three classes and grouping the candidates by host. The URL parser, the IP address checks, `validators.url` and `tldextract` are the fields of `UrlLib`.
- `Report` (report.dfy): the text of a result file. It is also given as structured data (`Listing`) and related to that form.
- `Scheduler` (scheduler.dfy): the `while True` wave loop. This covers:
  - skipping hosts that are not due;
  - ending a wave early after 1.1 × the wait;
  - dropping emptied hosts, then the stable re-sort;
  - the sleep between waves.
- `Audit` (audit.dfy): the whole run. It sorts the links, schedules the probes, and records the findings and the two files after every probe.
- `Cleaning` (cleaning.dfy): the page-cleaning pipeline that runs after the pages are fetched:
  - sort the pages by title;
  - drop translation pages;
  - keep only `http://` and `https://` links;
  - drop pages left with no link.

Time is abstract:

- Every `time.time()` call moves the clock forward by a non-negative `drift(tick)`.
- A sleep of `d` seconds moves it forward by exactly `d`.
- The request itself is the function `answer: Url -> Outcome`, with `Outcome = Status(code) | Failed(failure)`.

The result files are not stored in the scheduler's state. After every probe the program rewrites them from the maps. So `Audit.RecordAll` gives the files after any prefix of the probe trace, and they follow from that trace.

Two consequences of the code are worth knowing:

- The program rewrites both files after every probe whenever their map is non-empty, even when the probe found nothing (`Audit.Record`).
- Invalid URLs go into the broken map before any probe, but the broken file is written only after a probe. So a run in which no link is a candidate leaves the broken file unwritten even when some URLs were invalid (`Audit.RecordAllFiles`, `Audit.Written`).

## Model

| member | source | states |
|---|---|---|
| Numbers.NatToString | auditlinks.py:548 | a status code prints as its shortest numeral: digits only, `0` for zero and no leading zero otherwise |
| Numbers.ParseNatToString | auditlinks.py:548 | a status code printed in decimal reads back as the same number |
| Numbers.NatToStringInjective | auditlinks.py:548-550 | two different status codes never print the same text |
| Probe.Classify | auditlinks.py:493-541 | the request chain: the result is a request failure exactly when the first request failed, HTTPNOK exactly for another status than 200, HTTPOK exactly for 200 on a link that is not plain http, and a `NOHTTPS_` member exactly for 200 on a plain http link, where the https request decides which (200 gives HTTPS available, another status or a failure the member carrying it); each failure or status is carried over from the request that produced it |
| Probe.Route | auditlinks.py:547-567 | exactly HTTPOK and the https connection error give no finding; the `NOHTTPS_` members go to the no-HTTPS map and the others to the broken map, each with its reason text |
| Probe.Judge | auditlinks.py:490-567 | the finding for each outcome of the request chain: a failed first request is broken with the failure's text; another status than 200 is broken with `HTTP n`; a 200 on a non-http link is fine; a 200 on a plain http link consults the https request: 200 gives "HTTPS available", another status or a failure gives the quoted text ("maybe" for the timeouts and the generic exception); an https connection error is no finding; broken exactly when the first request failed or did not answer 200 |
| Probe.SecondProbeOnlyAfterPlainOk | auditlinks.py:511-516 | the https request's outcome affects the finding only after a 200 on a plain http link |
| Probe.NoFindingExactly | auditlinks.py:558-559 | exactly the plain OK result and the https connection error produce no finding |
| Probe.FailureTextRoundTrip | auditlinks.py:99-119 | each request failure's enum text identifies the failure and is not a status line |
| Probe.StatusTextRoundTrip | auditlinks.py:547-548 | the `HTTP n` reason is no failure text and gives back the code `n` |
| Probe.RecoverRoute | auditlinks.py:547-567 | every finding recorded in either map can be read back to the exact result it came from, so no two results share a reason text in the same map |
| Links.ClassOf | auditlinks.py:411-435 | a link is special exactly when its host is `localhost` or a non-global or multicast IP address, whether or not it validates; otherwise it is a candidate exactly when it validates; a candidate's host key is the IP literal itself or else the registered domain |
| Links.Step | auditlinks.py:424-440 | one turn of the partition loop files the link under its class: a special or invalid link enters its map with its reason, a candidate joins the back of its host's queue, a host seen for the first time is appended to the key list, and nothing else changes |
| Links.Partition | auditlinks.py:411-442 | the special and broken maps hold exactly the special and invalid links with their reasons; the queue of each host is that host's candidates in link order; the host keys are listed once each in first-appearance order; queued links + special + invalid = all unique links |
| Links.QueueForMembers | auditlinks.py:435-440 | a host's queue holds exactly the candidates whose host key is that host |
| Links.QueueForNoDups | auditlinks.py:407-440 | after deduplication no queue holds a link twice |
| Links.HostOrderMembers | auditlinks.py:437-446 | the host list names each host that has a candidate, once |
| StableSort.SortDescending | auditlinks.py:448 | the host list sorted by descending queue length: ordered, a permutation, same total |
| StableSort.SortIsStable | auditlinks.py:634-642 | hosts with equal queue length keep their relative order |
| Report.Render | auditlinks.py:590-599 | the file text is empty exactly when no link of any page has a finding |
| Report.RenderIsListing | auditlinks.py:589-599 | the file text is exactly the listing: a `== [[:title]] ==` header for each page with at least one finding, then `[link] : reason` for each of its links in the map, in page and link order |
| Report.PageEntriesMembers | auditlinks.py:593-595 | a page's entries are exactly those of its links that are in the map |
| Report.PageShownIff | auditlinks.py:597-599 | a page gets a section exactly when one of its links has a finding, and the section starts with its header |
| Report.RenderAppend | auditlinks.py:590-599 | pages are rendered independently, in page order |
| Scheduler.Send | auditlinks.py:569-573 | a probe removes the head of its host's queue, sets that host's last-request time to the time of the request and records the probe (wave, host, link, time, queue length); no other host's queue or time changes |
| Scheduler.Turn | auditlinks.py:472-620 | a host visit changes no other host's queue or last-request time and never moves the clock back |
| Scheduler.TurnTrace | auditlinks.py:472-620 | a host visit either skips (nothing changes but the clock, and the wave goes on) or probes the head of its queue, at least `wait` seconds after the host's previous request; a host is skipped exactly when less than `wait` has passed since its last request at the time read on arrival; after a probe the host's stored request time is that arrival reading; after a probe the wave stops exactly when the next reading is 1.1 × wait or more after the wave started; a host already due is always probed |
| Scheduler.TurnStamps | auditlinks.py:472-620 | a probe records the reading its due test used as its request time and the reading taken right after it as its end; the turn stops the wave exactly when that end reading is 1.1 × wait or more after the wave started; a turn adds at most one probe and a turn without a probe never stops the wave |
| Scheduler.TurnValid | auditlinks.py:472-573 | a host visit keeps the scheduler invariant: every link sent is its host's next link in queue order, the backlog drops by the number sent, and probes to one host are `wait` seconds apart |
| Scheduler.WaveTrace | auditlinks.py:468-620 | a wave keeps every earlier probe and only appends new ones; a wave that sends nothing leaves the last-request times alone and does not stop early |
| Scheduler.WaveFrom | auditlinks.py:472-620 | the rest of a wave changes only the queues of the hosts still to be visited, keeps the set of hosts, and never moves the clock back |
| Scheduler.WaveServesDue | auditlinks.py:472-620 | a wave that does not stop early probes every host that was due when the wave reached it |
| Scheduler.WaveStopsAtMargin | auditlinks.py:619-620 | every probe of a wave but its last was sent, and the reading right after it was taken, less than 1.1 × wait after the wave started |
| Scheduler.WaveStopEnds | auditlinks.py:619-620 | a wave that stops early has sent at least one probe and ends right after it: the last probe's following reading is the wave's final clock |
| Scheduler.WaveWithinMargin | auditlinks.py:619-620 | a wave that does not stop early saw the reading after each of its probes stay below 1.1 × wait from the start |
| Scheduler.WaveStopFlag | auditlinks.py:619-620 | a wave stops early exactly when it sent a probe and the reading right after its last probe is 1.1 × wait or more after the wave started |
| Scheduler.RunWave | auditlinks.py:468-620 | a wave starts at a fresh clock reading, ends no earlier, keeps the earlier probes and the set of hosts |
| Scheduler.WaveInWave | auditlinks.py:472-473 | within a wave, hosts are served in order of non-increasing queue length |
| Scheduler.WaveProgress | auditlinks.py:476-482 | a wave whose first host is due sends at least one probe |
| Scheduler.KeepPending | auditlinks.py:627 | dropping the emptied hosts keeps exactly the hosts with links left, none twice |
| Scheduler.Reorder | auditlinks.py:627-642 | the next host list holds exactly the hosts with links left, sorted by descending queue length |
| Scheduler.ReorderIsStable | auditlinks.py:634-642 | hosts left with the same queue length keep the order they had in the previous wave |
| Scheduler.Pause | auditlinks.py:652-669 | the sleep makes the wave last `wait` seconds when one host remains and 1.1 × wait otherwise, and is zero when the wave already lasted that long |
| Scheduler.Rest | auditlinks.py:652-669 | after the sleep the wave has lasted exactly `wait` seconds (one host left) or 1.1 × wait (several), or the time read after the wave when that is already later; so at least `wait` has passed since the wave started |
| Scheduler.Schedule | auditlinks.py:466-669 | the loop terminates with every queue empty; each host's probes are exactly its queue, in order; the number of probes equals the total backlog; two probes to one host are at least `wait` seconds apart; each wave serves hosts in order of non-increasing queue length |
| Audit.Record | auditlinks.py:558-599 | a probe's verdict lands in the map it names with its reason, no other entry changes, and each file whose map is non-empty is rewritten to show that map |
| Audit.RecordAll | auditlinks.py:558-599 | recording a run of probes never removes an entry; after at least one probe each file with a non-empty map shows that map; with no probe nothing changes |
| Audit.RecordAllGrows | auditlinks.py:558-567 | the maps only gain entries, and only for probed links |
| Audit.RecordAllLands | auditlinks.py:558-567 | every probed link ends up in the map its finding names, with the finding's reason, and in no other map |
| Audit.RecordAllFiles | auditlinks.py:581-599 | each result file holds the rendering of its final map; the broken file stays unwritten when no probe ran or its map stayed empty, and the no-HTTPS file when its map stayed empty |
| Audit.ProbesAreCandidates | auditlinks.py:472-573 | every probed link is a candidate, sent to its own host |
| Audit.CandidatesAreProbed | auditlinks.py:466-624 | every candidate is probed before the loop ends |
| Audit.ProbedOnce | auditlinks.py:472-573 | no link is probed twice |
| Audit.FindingsExact | auditlinks.py:425-567 | a link is in the broken map exactly when it is invalid or a candidate whose finding is broken, and in the no-HTTPS map exactly when it is a candidate whose finding says so; special links are in neither |
| Audit.FindingsReasons | auditlinks.py:428-567 | every broken entry carries "Invalid URL" or its candidate's finding reason, and every no-HTTPS entry its finding reason |
| Audit.AuditLinks | auditlinks.py:404-669 | the whole audit: the partition, probes that cover every candidate once, rate-limited and wave-ordered, final maps exact with their reasons, and the two files as last rewritten |
| Cleaning.SortByTitle | auditlinks.py:351 | the pages sorted by title in Python's string order: ordered and a permutation |
| Cleaning.SortByTitleStable | auditlinks.py:351 | pages with the same title keep their order |
| Cleaning.WebLinks | auditlinks.py:357 | a page keeps exactly its `http://` and `https://` links |
| Cleaning.WebLinksCount | auditlinks.py:357 | each web link is kept as often as it occurs, and no other link is kept |
| Cleaning.WebLinksAppend | auditlinks.py:357 | the kept links stay in their order: filtering a concatenation filters each part |
| Cleaning.PassesAreCleanEach | auditlinks.py:354-359 | the three filtering passes clean each page independently: drop it if it is a translation or left without web links, otherwise keep it with its web links only |
| Cleaning.CleanThenSort | auditlinks.py:351-359 | filtering after the sort gives the same pages as sorting the filtered pages |
| Cleaning.CleanSpec | auditlinks.py:351-359 | the cleaned pages are exactly the non-translation pages with at least one web link, each with only its web links, sorted by title with ties in input order |

## Left out

- Command-line parsing (auditlinks.py:125-182) is left out: the wait time is a `nat` parameter, the file paths are implicit.
- Fetching the pages from the MediaWiki API, its pagination and its errors, and loading or saving the JSON dump (auditlinks.py:192-339, 361-377) are left out: they are I/O, and the model starts from a `seq<Page>`.
- The `LANG_SUFFIXES` table (auditlinks.py:33-67) is a parameter `suffixes` of `Cleaning.Clean`: it is data, not logic.
- Converting the fetched dictionary into `[title, links]` pairs (auditlinks.py:348) is left out: the pages arrive as a sequence, in the dictionary's order.
- The iteration order of `list(set(extlinks))` (auditlinks.py:407) is unspecified in Python, so it is an input: `Audit.AuditLinks` and `Links.Partition` take the deduplicated links as a sequence without repetitions.
- The HTTP requests (auditlinks.py:493, 516) are the function `answer`, so a URL gives the same outcome every time it is asked in one run. Headers, the 5-second timeout and redirect handling are inside that function.
- `urlparse`, `ipaddress`, `validators.url` and `tldextract` are uninterpreted fields of `UrlLib`.
- Console output, the progress counter, the percentages and the final summary counts (auditlinks.py:454-460, 482-484, 560-562, 663-669, 675-688) are left out: they do not change the result.
- Errors opening a result file (auditlinks.py:584-588, which exit with status 1) are left out. The files are values, and `None` means not written by this run.
- The sleep between waves is one pause of the computed length. auditlinks.py splits it into a fractional sleep plus whole-second sleeps (auditlinks.py:660-668). The total is the same, and the clock reads no time in between.
- The `special_extlinks` map is built by the partition but never written to a file, so the model keeps it only in `Links.Grouping`.
- The `https` follow-up request after a 200 on a plain `http` link (auditlinks.py:516) goes to the same host right after the first request, with no wait. In the model it is part of `Audit.Verdict` and not a probe of the trace, so `Scheduler.RateLimited` covers only the first request of each link.
- `urlparse` raises `ValueError` for a malformed host such as an unmatched bracket (`http://[foo/`), outside any `try` (auditlinks.py:412), which ends the program before any probe. `UrlLib.hostname` is total: the model assumes every link parses.
- Floating-point time is modelled with `real`; rounding of `time.time()` and of `1.1 * wait` is not modelled.

## Findings

None.

=== FILE: audit.dfy ===
/**
 The audit as a whole (auditlinks.py, from the deduplicated link list to the
 end of the test loop): partition the links, probe every candidate through
 the scheduler, and keep the "broken" and "no HTTPS" maps and the two result
 files up to date after every probe.
 */
module Audit {

  import opened Options
  import opened StableSort
  import opened Probe
  import opened Links
  import opened Report
  import opened Scheduler

  /**
   The two finding maps, and what this run last wrote to the two result
   files (`None`: not written by this run).
   */
  datatype Files = Files(
    broken: map<Url, string>,
    nohttps: map<Url, string>,
    brokenFile: Option<string>,
    nohttpsFile: Option<string>)

  /** The finding for link `u`: its own probe, and the probe of its https form. */
  function Verdict(env: Env, u: Url): Finding {
    Judge(env.answer(u), env.lib.isPlainHttp(u), env.answer(env.lib.toHttps(u)))
  }

  /** Storing the verdict for `u`, then rewriting each file whose map is non-empty. */
  function Record(fs: Files, u: Url, v: Finding, pages: seq<Page>): (r: Files)
    // the verdict lands in the map it names, with its reason
    ensures v.Broken? ==> u in r.broken && r.broken[u] == v.reason
    ensures v.NoHttps? ==> u in r.nohttps && r.nohttps[u] == v.reason
    // no other entry changes
    ensures forall l :: l != u ==> (l in r.broken <==> l in fs.broken) && (l in r.nohttps <==> l in fs.nohttps)
    ensures forall l :: l != u && l in r.broken ==> r.broken[l] == fs.broken[l]
    ensures forall l :: l != u && l in r.nohttps ==> r.nohttps[l] == fs.nohttps[l]
    ensures !v.Broken? ==> r.broken == fs.broken
    ensures !v.NoHttps? ==> r.nohttps == fs.nohttps
    // a file with a non-empty map shows that map; one with an empty map is left as it was
    ensures r.brokenFile == if |r.broken| > 0 then Some(Render(pages, r.broken)) else fs.brokenFile
    ensures r.nohttpsFile == if |r.nohttps| > 0 then Some(Render(pages, r.nohttps)) else fs.nohttpsFile
  {
    var broken := if v.Broken? then fs.broken[u := v.reason] else fs.broken;
    var nohttps := if v.NoHttps? then fs.nohttps[u := v.reason] else fs.nohttps;
    Files(
      broken,
      nohttps,
      if |broken| > 0 then Some(Render(pages, broken)) else fs.brokenFile,
      if |nohttps| > 0 then Some(Render(pages, nohttps)) else fs.nohttpsFile)
  }

  /** The verdicts of all links, as one function. */
  function Verdicts(env: Env): Url -> Finding {
    u => Verdict(env, u)
  }

  /** The files after recording, in order, the probes of `ds`, whose verdicts `verdict` gives. */
  function RecordAll(fs: Files, ds: seq<Dispatch>, verdict: Url -> Finding, pages: seq<Page>): (r: Files)
    // no entry is ever removed
    ensures fs.broken.Keys <= r.broken.Keys && fs.nohttps.Keys <= r.nohttps.Keys
    // after at least one probe, each file with a non-empty map shows that map
    ensures ds != [] && |r.broken| > 0 ==> r.brokenFile == Some(Render(pages, r.broken))
    ensures ds != [] && |r.nohttps| > 0 ==> r.nohttpsFile == Some(Render(pages, r.nohttps))
    // with no probe, nothing changes
    ensures ds == [] ==> r == fs
  {
    if ds == [] then fs
    else
      var d := ds[|ds| - 1];
      Record(RecordAll(fs, ds[..|ds| - 1], verdict, pages), d.link, verdict(d.link), pages)
  }

  /** No link was probed twice. */
  ghost predicate DistinctLinks(ds: seq<Dispatch>) {
    forall m, n :: 0 <= m < n < |ds| ==> ds[m].link != ds[n].link
  }

  /** Where link `u` stands in the maps of `fs` once its verdict `v` is recorded. */
  ghost predicate Lands(fs: Files, u: Url, v: Finding) {
    && (u in fs.broken <==> v.Broken?)
    && (u in fs.nohttps <==> v.NoHttps?)
    && (v.Broken? ==> fs.broken[u] == v.reason)
    && (v.NoHttps? ==> fs.nohttps[u] == v.reason)
  }

  /** The maps only gain entries, and only for probed links. */
  lemma {:induction false} RecordAllGrows(fs: Files, ds: seq<Dispatch>, verdict: Url -> Finding, pages: seq<Page>)
    requires forall m :: 0 <= m < |ds| ==> ds[m].link !in fs.broken
    ensures var r := RecordAll(fs, ds, verdict, pages);
      && (forall u :: u in fs.broken ==> u in r.broken && r.broken[u] == fs.broken[u])
      && (forall u :: u in fs.nohttps ==> u in r.nohttps)
      && (forall u :: u in r.broken && u !in fs.broken ==> exists m :: 0 <= m < |ds| && ds[m].link == u)
      && (forall u :: u in r.nohttps && u !in fs.nohttps ==> exists m :: 0 <= m < |ds| && ds[m].link == u)
  {
    if ds != [] {
      var init := ds[..|ds| - 1];
      assert forall m :: 0 <= m < |init| ==> init[m] == ds[m];
      RecordAllGrows(fs, init, verdict, pages);
    }
  }

  /** Every probed link ends up in the map its verdict names, with the verdict's reason, and in no other. */
  lemma {:induction false} RecordAllLands(fs: Files, ds: seq<Dispatch>, verdict: Url -> Finding, pages: seq<Page>)
    requires DistinctLinks(ds)
    requires forall m :: 0 <= m < |ds| ==> ds[m].link !in fs.broken && ds[m].link !in fs.nohttps
    ensures forall m :: 0 <= m < |ds| ==> Lands(RecordAll(fs, ds, verdict, pages), ds[m].link, verdict(ds[m].link))
  {
    if ds != [] {
      var init := ds[..|ds| - 1];
      var d := ds[|ds| - 1];
      assert forall m :: 0 <= m < |init| ==> init[m] == ds[m];
      RecordAllLands(fs, init, verdict, pages);
      RecordAllGrows(fs, init, verdict, pages);
      var prev := RecordAll(fs, init, verdict, pages);
      assert d.link !in prev.broken && d.link !in prev.nohttps;
    }
  }

  /**
   A result file holds the rendering of its final map, unless no probe was
   made or the map stayed empty; then this run never wrote it.
   */
  lemma {:induction false} RecordAllFiles(fs: Files, ds: seq<Dispatch>, verdict: Url -> Finding, pages: seq<Page>)
    requires fs.brokenFile == None && fs.nohttpsFile == None && fs.nohttps == map[]
    ensures var r := RecordAll(fs, ds, verdict, pages);
      && r.brokenFile == (if ds == [] || |r.broken| == 0 then None else Some(Render(pages, r.broken)))
      && r.nohttpsFile == (if |r.nohttps| == 0 then None else Some(Render(pages, r.nohttps)))
  {
    if ds != [] {
      var init := ds[..|ds| - 1];
      RecordAllFiles(fs, init, verdict, pages);
      var prev := RecordAll(fs, init, verdict, pages);
      var r := RecordAll(fs, ds, verdict, pages);
      assert prev.broken.Keys <= r.broken.Keys && prev.nohttps.Keys <= r.nohttps.Keys;
      if |r.broken| == 0 {
        assert r.broken == map[];
      }
      if |r.nohttps| == 0 {
        assert r.nohttps == map[];
      }
    }
  }

  /** The hypotheses on a schedule that emptied the queues of the partition `g` of `links`. */
  ghost predicate Drained(lib: UrlLib, links: seq<Url>, g: Grouping, trace: seq<Dispatch>) {
    && NoDups(links)
    && QueuesDescribe(lib, links, g)
    && (forall k :: k in g.queues ==> LinksTo(trace, k) == g.queues[k])
    && (forall m :: 0 <= m < |trace| ==> trace[m].key in g.queues)
  }

  /** Each probe is a candidate, sent to its own host. */
  lemma ProbesAreCandidates(lib: UrlLib, links: seq<Url>, g: Grouping, trace: seq<Dispatch>)
    requires Drained(lib, links, g, trace)
    ensures forall m :: 0 <= m < |trace| ==> trace[m].link in links && ClassOf(lib, trace[m].link) == Candidate(trace[m].key)
  {
    forall m | 0 <= m < |trace|
      ensures trace[m].link in links && ClassOf(lib, trace[m].link) == Candidate(trace[m].key)
    {
      var k := trace[m].key;
      LinksToMembers(trace, k);
      QueueForMembers(lib, links, k);
      assert trace[m].link in LinksTo(trace, k);
    }
  }

  /** Every candidate is probed. */
  lemma CandidatesAreProbed(lib: UrlLib, links: seq<Url>, g: Grouping, trace: seq<Dispatch>)
    requires Drained(lib, links, g, trace)
    ensures forall u :: u in links && ClassOf(lib, u).Candidate? ==> exists m :: 0 <= m < |trace| && trace[m].link == u
  {
    HostOrderMembers(lib, links);
    forall u | u in links && ClassOf(lib, u).Candidate?
      ensures exists m :: 0 <= m < |trace| && trace[m].link == u
    {
      var k := ClassOf(lib, u).host;
      QueueForMembers(lib, links, k);
      assert k in g.queues;
      LinksToMembers(trace, k);
      assert u in LinksTo(trace, k);
    }
  }

  /** No link is probed twice. */
  lemma ProbedOnce(lib: UrlLib, links: seq<Url>, g: Grouping, trace: seq<Dispatch>)
    requires Drained(lib, links, g, trace)
    requires forall m :: 0 <= m < |trace| ==> ClassOf(lib, trace[m].link) == Candidate(trace[m].key)
    ensures DistinctLinks(trace)
  {
    forall m, n | 0 <= m < n < |trace|
      ensures trace[m].link != trace[n].link
    {
      var k := trace[m].key;
      if trace[n].key == k {
        QueueForNoDups(lib, links, k);
        LinksToDistinct(trace, k);
      }
    }
  }

  /** The probes of a run, each a distinct candidate, covering all candidates. */
  ghost predicate Covered(lib: UrlLib, links: seq<Url>, trace: seq<Dispatch>) {
    && (forall m :: 0 <= m < |trace| ==> trace[m].link in links && ClassOf(lib, trace[m].link) == Candidate(trace[m].key))
    && (forall u :: u in links && ClassOf(lib, u).Candidate? ==> exists m :: 0 <= m < |trace| && trace[m].link == u)
    && DistinctLinks(trace)
  }

  /** The files a run starts from: the invalid links as broken, nothing else, nothing written. */
  function StartFiles(g: Grouping): Files {
    Files(g.broken, map[], None, None)
  }

  /** The links probed in `trace`. */
  ghost function Probed(trace: seq<Dispatch>): set<Url> {
    set m | 0 <= m < |trace| :: trace[m].link
  }

  /** The probed links are exactly the candidates. */
  lemma ProbedAreCandidates(lib: UrlLib, links: seq<Url>, trace: seq<Dispatch>)
    requires Covered(lib, links, trace)
    ensures forall u :: u in Probed(trace) <==> u in links && ClassOf(lib, u).Candidate?
  {
  }

  /** Recording a run of distinct probes, none of them already in a map: each lands where its verdict says. */
  lemma FindingsLand(fs: Files, trace: seq<Dispatch>, verdict: Url -> Finding, pages: seq<Page>)
    requires DistinctLinks(trace)
    requires fs.nohttps == map[]
    requires forall m :: 0 <= m < |trace| ==> trace[m].link !in fs.broken
    ensures forall u :: u in Probed(trace) ==> Lands(RecordAll(fs, trace, verdict, pages), u, verdict(u))
  {
    RecordAllLands(fs, trace, verdict, pages);
    forall u | u in Probed(trace)
      ensures Lands(RecordAll(fs, trace, verdict, pages), u, verdict(u))
    {
      var m :| 0 <= m < |trace| && trace[m].link == u;
    }
  }

  /** The same run keeps the earlier entries and adds only probed links. */
  lemma FindingsGrow(fs: Files, trace: seq<Dispatch>, verdict: Url -> Finding, pages: seq<Page>)
    requires fs.nohttps == map[]
    requires forall m :: 0 <= m < |trace| ==> trace[m].link !in fs.broken
    ensures var r := RecordAll(fs, trace, verdict, pages);
      && (forall u :: u in fs.broken ==> u in r.broken && r.broken[u] == fs.broken[u])
      && (forall u :: u in r.broken ==> u in fs.broken || u in Probed(trace))
      && (forall u :: u in r.nohttps ==> u in Probed(trace))
  {
    RecordAllGrows(fs, trace, verdict, pages);
  }

  lemma FindingsPrepare(lib: UrlLib, links: seq<Url>, g: Grouping, trace: seq<Dispatch>,
                        verdict: Url -> Finding, pages: seq<Page>)
    requires MapsDescribe(lib, links, g)
    requires Covered(lib, links, trace)
    ensures var r := RecordAll(StartFiles(g), trace, verdict, pages);
      && (forall u :: u in Probed(trace) ==> Lands(r, u, verdict(u)))
      && (forall u :: u in g.broken ==> u in r.broken && r.broken[u] == g.broken[u])
      && (forall u :: u in r.broken ==> u in g.broken || u in Probed(trace))
      && (forall u :: u in r.nohttps ==> u in Probed(trace))
  {
    assert forall m :: 0 <= m < |trace| ==> trace[m].link !in g.broken;
    FindingsLand(StartFiles(g), trace, verdict, pages);
    FindingsGrow(StartFiles(g), trace, verdict, pages);
  }

  /**
   Each entry of the broken map is an invalid link with the invalid-URL
   reason or a candidate whose verdict is broken with that reason; each
   entry of the "no HTTPS" map is a candidate whose verdict names it.
   */
  ghost predicate Reasons(lib: UrlLib, links: seq<Url>, verdict: Url -> Finding, r: Files) {
    && (forall u :: u in r.broken ==>
          && u in links
          && (ClassOf(lib, u) == Invalid ==> r.broken[u] == InvalidReason)
          && (ClassOf(lib, u).Candidate? ==> verdict(u) == Broken(r.broken[u])))
    && (forall u :: u in r.nohttps ==> u in links && verdict(u) == NoHttps(r.nohttps[u]))
  }

  /**
   A link is broken exactly when it is invalid or a candidate whose verdict
   is broken, and "no HTTPS" exactly when it is a candidate whose verdict
   says so; special links are in neither map.
   */
  ghost predicate Exact(lib: UrlLib, links: seq<Url>, verdict: Url -> Finding, r: Files) {
    forall u :: u in links ==>
      && (u in r.broken <==> ClassOf(lib, u) == Invalid || (ClassOf(lib, u).Candidate? && verdict(u).Broken?))
      && (u in r.nohttps <==> ClassOf(lib, u).Candidate? && verdict(u).NoHttps?)
  }

  lemma FindingsReasons(lib: UrlLib, links: seq<Url>, g: Grouping, trace: seq<Dispatch>,
                        verdict: Url -> Finding, pages: seq<Page>)
    requires MapsDescribe(lib, links, g)
    requires Covered(lib, links, trace)
    ensures Reasons(lib, links, verdict, RecordAll(StartFiles(g), trace, verdict, pages))
  {
    FindingsPrepare(lib, links, g, trace, verdict, pages);
    ProbedAreCandidates(lib, links, trace);
  }

  lemma FindingsExact(lib: UrlLib, links: seq<Url>, g: Grouping, trace: seq<Dispatch>,
                      verdict: Url -> Finding, pages: seq<Page>)
    requires MapsDescribe(lib, links, g)
    requires Covered(lib, links, trace)
    ensures Exact(lib, links, verdict, RecordAll(StartFiles(g), trace, verdict, pages))
  {
    FindingsPrepare(lib, links, g, trace, verdict, pages);
    ProbedAreCandidates(lib, links, trace);
  }

  /**
   What this run wrote to the result files: the rendering of each final map,
   unless no probe was made or the map stayed empty.
   */
  ghost predicate Written(pages: seq<Page>, trace: seq<Dispatch>, r: Files) {
    && r.brokenFile == (if trace == [] || |r.broken| == 0 then None else Some(Render(pages, r.broken)))
    && r.nohttpsFile == (if |r.nohttps| == 0 then None else Some(Render(pages, r.nohttps)))
  }

  /** A schedule that drained the queues probed every candidate once and nothing else. */
  lemma DrainedCovers(lib: UrlLib, links: seq<Url>, g: Grouping, trace: seq<Dispatch>)
    requires Drained(lib, links, g, trace)
    ensures Covered(lib, links, trace)
  {
    ProbesAreCandidates(lib, links, g, trace);
    CandidatesAreProbed(lib, links, g, trace);
    ProbedOnce(lib, links, g, trace);
  }

  /** Everything the run leaves behind, for any verdict function. */
  lemma RunFindings(lib: UrlLib, links: seq<Url>, g: Grouping, trace: seq<Dispatch>,
                    verdict: Url -> Finding, pages: seq<Page>)
    requires MapsDescribe(lib, links, g)
    requires Covered(lib, links, trace)
    ensures var r := RecordAll(StartFiles(g), trace, verdict, pages);
      Exact(lib, links, verdict, r) && Reasons(lib, links, verdict, r) && Written(pages, trace, r)
  {
    FindingsExact(lib, links, g, trace, verdict, pages);
    FindingsReasons(lib, links, g, trace, verdict, pages);
    RecordAllFiles(StartFiles(g), trace, verdict, pages);
  }

  /**
   The audit of the deduplicated links `links` of `pages`: partition them,
   probe every candidate through the scheduler, and record the findings.
   */
  method AuditLinks(env: Env, pages: seq<Page>, links: seq<Url>, clock: Clock) returns (g: Grouping, s: Sched, files: Files)
    requires NoDups(links)
    requires forall u :: u in links <==> exists i :: 0 <= i < |pages| && u in pages[i].links
    requires clock.now >= 0.0
    ensures MapsDescribe(env.lib, links, g) && QueuesDescribe(env.lib, links, g)
    ensures Covered(env.lib, links, s.trace)
    ensures RateLimited(s.trace, env.wait) && WavesOrdered(s.trace)
    ensures Exact(env.lib, links, Verdicts(env), files)
    ensures Reasons(env.lib, links, Verdicts(env), files)
    ensures Written(pages, s.trace, files)
  {
    g := Partition(env.lib, links);
    HostOrderMembers(env.lib, links);
    assert Covers(g.queues, g.keys);
    s := Schedule(env, g.queues, g.keys, clock);
    assert Drained(env.lib, links, g, s.trace);
    files := RecordAll(StartFiles(g), s.trace, Verdicts(env), pages);
    DrainedCovers(env.lib, links, g, s.trace);
    RunFindings(env.lib, links, g, s.trace, Verdicts(env), pages);
  }
}

=== FILE: cleaning.dfy ===
/**
 The page-cleaning pipeline that runs after the pages are fetched
 (auditlinks.py, the "Cleans data" block): sort the pages by title, drop
 translation pages, keep only http and https links, drop pages left with
 no link.

 The language suffixes are a parameter: their list is data, not logic.
 */
module Cleaning {

  import opened Links
  import opened Report

  // Python compares strings by code point, lexicographically.

  /** `a <= b` in Python's string order. */
  predicate TitleLe(a: string, b: string) {
    if a == [] then true
    else if b == [] then false
    else if a[0] != b[0] then a[0] < b[0]
    else TitleLe(a[1..], b[1..])
  }

  lemma {:induction false} TitleLeRefl(a: string)
    ensures TitleLe(a, a)
  {
    if a != [] {
      TitleLeRefl(a[1..]);
    }
  }

  lemma {:induction false} TitleLeTotal(a: string, b: string)
    ensures TitleLe(a, b) || TitleLe(b, a)
  {
    if a != [] && b != [] && a[0] == b[0] {
      TitleLeTotal(a[1..], b[1..]);
    }
  }

  lemma {:induction false} TitleLeTrans(a: string, b: string, c: string)
    requires TitleLe(a, b) && TitleLe(b, c)
    ensures TitleLe(a, c)
  {
    if a != [] && b != [] && c != [] && a[0] == b[0] && b[0] == c[0] {
      TitleLeTrans(a[1..], b[1..], c[1..]);
    }
  }

  /** Ascending by title. */
  ghost predicate ByTitle(s: seq<Page>) {
    forall i, j :: 0 <= i < j < |s| ==> TitleLe(s[i].title, s[j].title)
  }

  /** Places `p` in front of the first page whose title is not smaller than its own. */
  function InsertByTitle(p: Page, t: seq<Page>): (r: seq<Page>)
    requires ByTitle(t)
    ensures ByTitle(r)
    ensures multiset(r) == multiset(t) + multiset{p}
  {
    if t == [] || TitleLe(p.title, t[0].title) then
      InsertFront(p, t);
      [p] + t
    else
      var rest := InsertByTitle(p, t[1..]);
      InsertBehind(p, t, rest);
      [t[0]] + rest
  }

  lemma InsertFront(p: Page, t: seq<Page>)
    requires ByTitle(t)
    requires t == [] || TitleLe(p.title, t[0].title)
    ensures ByTitle([p] + t)
  {
    var s := [p] + t;
    forall i, j | 0 <= i < j < |s|
      ensures TitleLe(s[i].title, s[j].title)
    {
      assert s[j] == t[j - 1];
      if i == 0 {
        if j > 1 {
          TitleLeTrans(p.title, t[0].title, t[j - 1].title);
        }
      } else {
        assert s[i] == t[i - 1];
      }
    }
  }

  /** The recursive case of `InsertByTitle`: the head of `t` stays in front. */
  lemma InsertBehind(p: Page, t: seq<Page>, rest: seq<Page>)
    requires t != [] && !TitleLe(p.title, t[0].title)
    requires ByTitle(t) && ByTitle(rest)
    requires multiset(rest) == multiset(t[1..]) + multiset{p}
    ensures ByTitle([t[0]] + rest)
    ensures multiset([t[0]] + rest) == multiset(t) + multiset{p}
  {
    assert t == [t[0]] + t[1..];
    TitleLeTotal(p.title, t[0].title);
    var s := [t[0]] + rest;
    forall i, j | 0 <= i < j < |s|
      ensures TitleLe(s[i].title, s[j].title)
    {
      assert s[j] == rest[j - 1];
      if i == 0 {
        assert rest[j - 1] in multiset(rest);
        if rest[j - 1] != p {
          assert rest[j - 1] in multiset(t[1..]);
          var k :| 0 <= k < |t[1..]| && t[1..][k] == rest[j - 1];
          assert t[k + 1] == rest[j - 1];
        }
      } else {
        assert s[i] == rest[i - 1];
      }
    }
  }

  /** Python's stable `sort(key=title)`, as an insertion sort. */
  function SortByTitle(s: seq<Page>): (r: seq<Page>)
    ensures ByTitle(r)
    ensures multiset(r) == multiset(s)
  {
    if s == [] then []
    else
      assert s == [s[0]] + s[1..];
      InsertByTitle(s[0], SortByTitle(s[1..]))
  }

  /** The pages titled `title`, in their order in `s`. */
  function Titled(s: seq<Page>, title: string): seq<Page> {
    if s == [] then [] else (if s[0].title == title then [s[0]] else []) + Titled(s[1..], title)
  }

  lemma {:induction false} InsertTitled(p: Page, t: seq<Page>, title: string)
    requires ByTitle(t)
    ensures Titled(InsertByTitle(p, t), title) == (if p.title == title then [p] else []) + Titled(t, title)
  {
    if t == [] || TitleLe(p.title, t[0].title) {
      assert ([p] + t)[1..] == t;
    } else {
      var rest := InsertByTitle(p, t[1..]);
      assert InsertByTitle(p, t) == [t[0]] + rest;
      TitleLeRefl(p.title);
      assert p.title != t[0].title;
      InsertTitled(p, t[1..], title);
      assert ([t[0]] + rest)[1..] == rest;
      var head := if t[0].title == title then [t[0]] else [];
      var mine := if p.title == title then [p] else [];
      assert Titled([t[0]] + rest, title) == head + Titled(rest, title);
      assert Titled(t, title) == head + Titled(t[1..], title);
      assert head == [] || mine == [];
      if head == [] {
        assert head + (mine + Titled(t[1..], title)) == mine + Titled(t[1..], title);
        assert mine + (head + Titled(t[1..], title)) == mine + Titled(t[1..], title);
      } else {
        assert mine + Titled(t[1..], title) == Titled(t[1..], title);
        assert mine + (head + Titled(t[1..], title)) == head + Titled(t[1..], title);
      }
    }
  }

  /** Stability: pages with the same title keep their relative order. */
  lemma {:induction false} SortByTitleStable(s: seq<Page>, title: string)
    ensures Titled(SortByTitle(s), title) == Titled(s, title)
  {
    if s != [] {
      SortByTitleStable(s[1..], title);
      InsertTitled(s[0], SortByTitle(s[1..]), title);
    }
  }

  // The three filtering passes, each a list comprehension over the pages.

  predicate EndsWith(s: string, suffix: string) {
    |suffix| <= |s| && s[|s| - |suffix|..] == suffix
  }

  predicate StartsWith(s: string, prefix: string) {
    |prefix| <= |s| && s[..|prefix|] == prefix
  }

  /** `title.endswith(LANG_SUFFIXES)`: the title ends with one of the suffixes. */
  predicate IsTranslation(title: string, suffixes: seq<string>) {
    exists i :: 0 <= i < |suffixes| && EndsWith(title, suffixes[i])
  }

  predicate IsWebLink(u: Url) {
    StartsWith(u, "http://") || StartsWith(u, "https://")
  }

  function DropTranslations(s: seq<Page>, suffixes: seq<string>): seq<Page> {
    if s == [] then []
    else (if IsTranslation(s[0].title, suffixes) then [] else [s[0]]) + DropTranslations(s[1..], suffixes)
  }

  /** The web links of a page, each as often as it occurs. */
  function WebLinks(links: seq<Url>): (r: seq<Url>)
    ensures forall i :: 0 <= i < |r| ==> IsWebLink(r[i])
    ensures forall u :: u in r <==> u in links && IsWebLink(u)
  {
    if links == [] then []
    else
      assert links == [links[0]] + links[1..];
      (if IsWebLink(links[0]) then [links[0]] else []) + WebLinks(links[1..])
  }

  /** Each web link is kept as often as it occurs; no other link is kept. */
  lemma {:induction false} WebLinksCount(links: seq<Url>)
    ensures forall u :: multiset(WebLinks(links))[u] == if IsWebLink(u) then multiset(links)[u] else 0
  {
    if links != [] {
      var head := if IsWebLink(links[0]) then [links[0]] else [];
      assert links == [links[0]] + links[1..];
      assert WebLinks(links) == head + WebLinks(links[1..]);
      WebLinksCount(links[1..]);
    }
  }

  /** The web links keep their order: filtering a concatenation filters each part. */
  lemma {:induction false} WebLinksAppend(a: seq<Url>, b: seq<Url>)
    ensures WebLinks(a + b) == WebLinks(a) + WebLinks(b)
  {
    if a == [] {
      assert a + b == b;
      assert WebLinks(a) + WebLinks(b) == WebLinks(b);
    } else {
      var head := if IsWebLink(a[0]) then [a[0]] else [];
      var ra, rb, rab := WebLinks(a[1..]), WebLinks(b), WebLinks(a[1..] + b);
      assert (a + b)[0] == a[0];
      assert (a + b)[1..] == a[1..] + b;
      WebLinksAppend(a[1..], b);
      calc {
        WebLinks(a + b);
        head + rab;
        head + (ra + rb);
        (head + ra) + rb;
        WebLinks(a) + rb;
      }
    }
  }

  function KeepWebLinks(s: seq<Page>): seq<Page> {
    if s == [] then [] else [Page(s[0].title, WebLinks(s[0].links))] + KeepWebLinks(s[1..])
  }

  function DropLinkless(s: seq<Page>): seq<Page> {
    if s == [] then [] else (if s[0].links == [] then [] else [s[0]]) + DropLinkless(s[1..])
  }

  /** The pipeline: sort, drop translations, keep web links, drop pages left empty. */
  function Clean(pages: seq<Page>, suffixes: seq<string>): seq<Page> {
    DropLinkless(KeepWebLinks(DropTranslations(SortByTitle(pages), suffixes)))
  }

  // The same cleaning, one page at a time.

  /** What becomes of one page: nothing, or the page with only its web links. */
  function CleanPage(p: Page, suffixes: seq<string>): seq<Page> {
    if IsTranslation(p.title, suffixes) || WebLinks(p.links) == [] then []
    else [Page(p.title, WebLinks(p.links))]
  }

  function CleanEach(s: seq<Page>, suffixes: seq<string>): seq<Page> {
    if s == [] then [] else CleanPage(s[0], suffixes) + CleanEach(s[1..], suffixes)
  }

  /** A cleaned page has links, all of them web links, and is not a translation. */
  ghost predicate IsClean(p: Page, suffixes: seq<string>) {
    p.links != [] && !IsTranslation(p.title, suffixes) && forall j :: 0 <= j < |p.links| ==> IsWebLink(p.links[j])
  }

  lemma {:induction false} CleanEachIsClean(s: seq<Page>, suffixes: seq<string>)
    ensures forall i :: 0 <= i < |CleanEach(s, suffixes)| ==> IsClean(CleanEach(s, suffixes)[i], suffixes)
  {
    if s != [] {
      CleanEachIsClean(s[1..], suffixes);
      var c := CleanPage(s[0], suffixes);
      var rest := CleanEach(s[1..], suffixes);
      assert forall i :: 0 <= i < |c + rest| ==> (c + rest)[i] == if i < |c| then c[i] else rest[i - |c|];
    }
  }

  lemma CleanEachCons(p: Page, t: seq<Page>, suffixes: seq<string>)
    ensures CleanEach([p] + t, suffixes) == CleanPage(p, suffixes) + CleanEach(t, suffixes)
  {
    assert ([p] + t)[1..] == t;
  }

  /** The three passes do what cleaning each page in turn does. */
  lemma {:induction false} PassesAreCleanEach(s: seq<Page>, suffixes: seq<string>)
    ensures DropLinkless(KeepWebLinks(DropTranslations(s, suffixes))) == CleanEach(s, suffixes)
  {
    if s != [] {
      PassesAreCleanEach(s[1..], suffixes);
      var rest := DropTranslations(s[1..], suffixes);
      if IsTranslation(s[0].title, suffixes) {
        assert DropTranslations(s, suffixes) == rest;
      } else {
        var q := Page(s[0].title, WebLinks(s[0].links));
        var kept := KeepWebLinks(rest);
        assert DropTranslations(s, suffixes) == [s[0]] + rest;
        assert ([s[0]] + rest)[1..] == rest;
        assert KeepWebLinks([s[0]] + rest) == [q] + kept;
        assert ([q] + kept)[1..] == kept;
        assert DropLinkless([q] + kept) == (if q.links == [] then [] else [q]) + DropLinkless(kept);
      }
    }
  }

  /** Cleaning keeps titles, so a lower bound on the titles of `t` bounds those of its cleaned pages. */
  lemma {:induction false} CleanEachBound(x: string, t: seq<Page>, suffixes: seq<string>)
    requires forall j :: 0 <= j < |t| ==> TitleLe(x, t[j].title)
    ensures forall i :: 0 <= i < |CleanEach(t, suffixes)| ==> TitleLe(x, CleanEach(t, suffixes)[i].title)
  {
    if t != [] {
      assert forall j :: 0 <= j < |t[1..]| ==> t[1..][j] == t[j + 1];
      CleanEachBound(x, t[1..], suffixes);
      var c := CleanPage(t[0], suffixes);
      var rest := CleanEach(t[1..], suffixes);
      assert forall i :: 0 <= i < |c + rest| ==> (c + rest)[i] == if i < |c| then c[i] else rest[i - |c|];
    }
  }

  /** Cleaning a sorted list keeps it sorted. */
  lemma {:induction false} SortedCleanEach(t: seq<Page>, suffixes: seq<string>)
    requires ByTitle(t)
    ensures ByTitle(CleanEach(t, suffixes))
  {
    if t != [] {
      assert forall j :: 0 <= j < |t[1..]| ==> t[1..][j] == t[j + 1];
      SortedCleanEach(t[1..], suffixes);
      var c := CleanPage(t[0], suffixes);
      var rest := CleanEach(t[1..], suffixes);
      if c != [] {
        CleanEachBound(t[0].title, t[1..], suffixes);
        var s := c + rest;
        forall i, j | 0 <= i < j < |s|
          ensures TitleLe(s[i].title, s[j].title)
        {
          assert s[j] == rest[j - 1];
          if i > 0 {
            assert s[i] == rest[i - 1];
          }
        }
      }
    }
  }

  lemma CleanInsertFront(p: Page, t: seq<Page>, suffixes: seq<string>)
    requires ByTitle(t)
    requires t == [] || TitleLe(p.title, t[0].title)
    ensures ByTitle(CleanEach(t, suffixes))
    ensures CleanEach(InsertByTitle(p, t), suffixes) ==
      if CleanPage(p, suffixes) == [] then CleanEach(t, suffixes)
      else InsertByTitle(CleanPage(p, suffixes)[0], CleanEach(t, suffixes))
  {
    SortedCleanEach(t, suffixes);
    CleanEachCons(p, t, suffixes);
    var ct := CleanEach(t, suffixes);
    if t != [] {
      forall j | 0 <= j < |t| ensures TitleLe(p.title, t[j].title) {
        if j > 0 {
          TitleLeTrans(p.title, t[0].title, t[j].title);
        }
      }
      CleanEachBound(p.title, t, suffixes);
    }
  }

  /** A page placed behind the at most one page of `c` by title lands behind it in `c + u` too. */
  lemma InsertPast(q: Page, c: seq<Page>, u: seq<Page>)
    requires ByTitle(c + u) && ByTitle(u)
    requires |c| <= 1 && (c != [] ==> !TitleLe(q.title, c[0].title))
    ensures InsertByTitle(q, c + u) == c + InsertByTitle(q, u)
  {
    if c == [] {
      assert c + u == u;
    } else {
      assert c == [c[0]];
      assert (c + u)[0] == c[0];
      assert (c + u)[1..] == u;
    }
  }

  lemma CleanInsertBehind(p: Page, t: seq<Page>, suffixes: seq<string>)
    requires ByTitle(t)
    requires t != [] && !TitleLe(p.title, t[0].title)
    requires ByTitle(CleanEach(t[1..], suffixes))
    requires CleanEach(InsertByTitle(p, t[1..]), suffixes) ==
      if CleanPage(p, suffixes) == [] then CleanEach(t[1..], suffixes)
      else InsertByTitle(CleanPage(p, suffixes)[0], CleanEach(t[1..], suffixes))
    ensures ByTitle(CleanEach(t, suffixes))
    ensures CleanEach(InsertByTitle(p, t), suffixes) ==
      if CleanPage(p, suffixes) == [] then CleanEach(t, suffixes)
      else InsertByTitle(CleanPage(p, suffixes)[0], CleanEach(t, suffixes))
  {
    SortedCleanEach(t, suffixes);
    var rest := InsertByTitle(p, t[1..]);
    assert InsertByTitle(p, t) == [t[0]] + rest;
    CleanEachCons(t[0], rest, suffixes);
    var c0 := CleanPage(t[0], suffixes);
    var cp := CleanPage(p, suffixes);
    var ct' := CleanEach(t[1..], suffixes);
    assert CleanEach(t, suffixes) == c0 + ct';
    if cp != [] {
      assert c0 != [] ==> c0[0].title == t[0].title;
      InsertPast(cp[0], c0, ct');
    }
  }

  /** Cleaning commutes with inserting a page by title. */
  lemma {:induction false} CleanInsert(p: Page, t: seq<Page>, suffixes: seq<string>)
    requires ByTitle(t)
    ensures ByTitle(CleanEach(t, suffixes))
    ensures CleanEach(InsertByTitle(p, t), suffixes) ==
      if CleanPage(p, suffixes) == [] then CleanEach(t, suffixes)
      else InsertByTitle(CleanPage(p, suffixes)[0], CleanEach(t, suffixes))
  {
    if t == [] || TitleLe(p.title, t[0].title) {
      CleanInsertFront(p, t, suffixes);
    } else {
      CleanInsert(p, t[1..], suffixes);
      CleanInsertBehind(p, t, suffixes);
    }
  }

  /** Sorting then cleaning is cleaning then sorting. */
  lemma {:induction false} CleanThenSort(s: seq<Page>, suffixes: seq<string>)
    ensures CleanEach(SortByTitle(s), suffixes) == SortByTitle(CleanEach(s, suffixes))
  {
    if s != [] {
      var c := CleanPage(s[0], suffixes);
      var sorted := SortByTitle(s[1..]);
      var rest := CleanEach(s[1..], suffixes);
      assert SortByTitle(s) == InsertByTitle(s[0], sorted);
      assert CleanEach(s, suffixes) == c + rest;
      CleanThenSort(s[1..], suffixes);
      CleanInsert(s[0], sorted, suffixes);
      if c == [] {
        assert c + rest == rest;
      } else {
        assert c == [c[0]];
        assert ([c[0]] + rest)[1..] == rest;
      }
    }
  }

  /**
   The cleaned pages are exactly the non-translation pages that keep at
   least one web link, each with only its web links, sorted by title with
   ties in input order.
   */
  lemma CleanSpec(pages: seq<Page>, suffixes: seq<string>)
    ensures Clean(pages, suffixes) == SortByTitle(CleanEach(pages, suffixes))
    ensures ByTitle(Clean(pages, suffixes))
    ensures multiset(Clean(pages, suffixes)) == multiset(CleanEach(pages, suffixes))
    ensures forall p :: p in Clean(pages, suffixes) ==> IsClean(p, suffixes)
    ensures forall title :: Titled(Clean(pages, suffixes), title) == Titled(CleanEach(pages, suffixes), title)
  {
    PassesAreCleanEach(SortByTitle(pages), suffixes);
    CleanThenSort(pages, suffixes);
    CleanEachIsClean(pages, suffixes);
    var r := Clean(pages, suffixes);
    forall p | p in r
      ensures IsClean(p, suffixes)
    {
      assert p in multiset(r);
      assert p in CleanEach(pages, suffixes);
    }
    forall title
      ensures Titled(Clean(pages, suffixes), title) == Titled(CleanEach(pages, suffixes), title)
    {
      SortByTitleStable(CleanEach(pages, suffixes), title);
    }
  }
}

=== FILE: links.dfy ===
/**
 Deduplicated links, their three-way partition (special, invalid,
 candidate) and the grouping of candidates into one FIFO queue per host
 (auditlinks.py, the loop that fills `hosts` and the sort into
 `hosts_sorted`).

 The URL parser, the IP address checks, the URL validator and the
 public-suffix lookup are library calls; they are the fields of `UrlLib`,
 left uninterpreted.
 */
module Links {

  import opened StableSort

  type Url = string

  /** The registered domain of a hostname, or the hostname itself when it is an IP literal. */
  type HostKey = string

  /** The library functions the program consults about a URL. */
  datatype UrlLib = UrlLib(
    hostname: Url -> string,              // urlparse(url).hostname
    isIpAddress: string -> bool,          // ipaddress.ip_address(hostname) succeeds
    isGlobal: string -> bool,             // ip.is_global
    isMulticast: string -> bool,          // ip.is_multicast
    isValid: Url -> bool,                 // validators.url(url)
    registeredDomain: string -> HostKey,  // tldextract.extract(hostname).registered_domain
    isPlainHttp: Url -> bool,             // urlparse(url).scheme == "http"
    toHttps: Url -> Url)                  // the URL with its scheme replaced by "https"

  datatype LinkClass = Special | Invalid | Candidate(host: HostKey)

  /** The reason recorded for a special link (the enum value shared with HTTPOK). */
  const SpecialReason := "OK"
  /** The reason recorded in the broken map for a link that fails validation. */
  const InvalidReason := "Invalid URL"

  /** How the partition loop treats one link: the special-host test first, then validation, then the host key. */
  function ClassOf(lib: UrlLib, url: Url): (c: LinkClass)
    // localhost and non-global or multicast IP addresses are special, whether or not the URL validates
    ensures var h := lib.hostname(url);
      c == Special <==> h == "localhost" || (lib.isIpAddress(h) && (!lib.isGlobal(h) || lib.isMulticast(h)))
    // a link is a candidate exactly when it is not special and validates
    ensures c.Candidate? <==> c != Special && lib.isValid(url)
    // the host key is the IP literal itself, otherwise the registered domain
    ensures var h := lib.hostname(url);
      c.Candidate? ==> c.host == if lib.isIpAddress(h) then h else lib.registeredDomain(h)
  {
    var h := lib.hostname(url);
    var ip := lib.isIpAddress(h);
    if h == "localhost" || (ip && (!lib.isGlobal(h) || lib.isMulticast(h))) then Special
    else if !lib.isValid(url) then Invalid
    else Candidate(if ip then h else lib.registeredDomain(h))
  }

  /** The candidates of `links` whose host key is `k`, in the order of `links`. */
  function QueueFor(lib: UrlLib, links: seq<Url>, k: HostKey): seq<Url> {
    if links == [] then []
    else
      var u := links[|links| - 1];
      QueueFor(lib, links[..|links| - 1], k) + (if ClassOf(lib, u) == Candidate(k) then [u] else [])
  }

  /** The host keys of the candidates of `links`, each once, in order of first appearance. */
  function HostOrder(lib: UrlLib, links: seq<Url>): seq<HostKey> {
    if links == [] then []
    else
      var earlier := HostOrder(lib, links[..|links| - 1]);
      match ClassOf(lib, links[|links| - 1])
      case Candidate(k) => if k in earlier then earlier else earlier + [k]
      case _ => earlier
  }

  /** The length of a host's queue; zero for a key without one. */
  function Weight(queues: map<HostKey, seq<Url>>): HostKey -> nat {
    (k: HostKey) => if k in queues then |queues[k]| else 0
  }

  /** The number of links waiting in the queues of `keys`. */
  function Backlog(keys: seq<HostKey>, queues: map<HostKey, seq<Url>>): nat {
    SumWeights(keys, Weight(queues))
  }

  /**
   The result of the partition: the special and broken maps, the host
   queues, and the host keys in the order the host dictionary iterates them.
   */
  datatype Grouping = Grouping(
    special: map<Url, string>,
    broken: map<Url, string>,
    queues: map<HostKey, seq<Url>>,
    keys: seq<HostKey>)

  lemma {:induction false} QueueForMembers(lib: UrlLib, links: seq<Url>, k: HostKey)
    ensures forall u :: u in QueueFor(lib, links, k) <==> u in links && ClassOf(lib, u) == Candidate(k)
  {
    if links != [] {
      var init := links[..|links| - 1];
      QueueForMembers(lib, init, k);
      assert links == init + [links[|links| - 1]];
    }
  }

  /** A host's queue holds no link twice. */
  lemma {:induction false} QueueForNoDups(lib: UrlLib, links: seq<Url>, k: HostKey)
    requires NoDups(links)
    ensures NoDups(QueueFor(lib, links, k))
  {
    if links != [] {
      var init := links[..|links| - 1];
      var u := links[|links| - 1];
      assert links == init + [u];
      NoDupsSnoc(init, u);
      QueueForNoDups(lib, init, k);
      QueueForMembers(lib, init, k);
      NoDupsSnoc(QueueFor(lib, init, k), u);
    }
  }

  lemma {:induction false} HostOrderMembers(lib: UrlLib, links: seq<Url>)
    ensures NoDups(HostOrder(lib, links))
    ensures forall k :: k in HostOrder(lib, links) <==> exists u :: u in links && ClassOf(lib, u) == Candidate(k)
  {
    if links != [] {
      var init := links[..|links| - 1];
      var last := links[|links| - 1];
      HostOrderMembers(lib, init);
      assert links == init + [last];
      forall k | exists u :: u in links && ClassOf(lib, u) == Candidate(k)
        ensures k in HostOrder(lib, links)
      {
        var u :| u in links && ClassOf(lib, u) == Candidate(k);
        if u != last {
          assert u in init;
        }
      }
    }
  }

  /** One turn of the partition loop: file link `u` under its class. */
  function Step(lib: UrlLib, g: Grouping, u: Url): (r: Grouping)
    // a special or invalid link is added to its map, with its reason
    ensures r.special == if ClassOf(lib, u) == Special then g.special[u := SpecialReason] else g.special
    ensures r.broken == if ClassOf(lib, u) == Invalid then g.broken[u := InvalidReason] else g.broken
    // a candidate joins the back of its host's queue, and no other queue changes
    ensures forall k :: k in r.queues <==> k in g.queues || ClassOf(lib, u) == Candidate(k)
    ensures forall k :: k in g.queues && ClassOf(lib, u) != Candidate(k) ==> r.queues[k] == g.queues[k]
    ensures ClassOf(lib, u).Candidate? ==>
      var k := ClassOf(lib, u).host; r.queues[k] == (if k in g.queues then g.queues[k] else []) + [u]
    // the key list grows only by a host seen for the first time
    ensures r.keys == if ClassOf(lib, u).Candidate? && ClassOf(lib, u).host !in g.queues then g.keys + [ClassOf(lib, u).host] else g.keys
  {
    match ClassOf(lib, u)
    case Special => g.(special := g.special[u := SpecialReason])
    case Invalid => g.(broken := g.broken[u := InvalidReason])
    case Candidate(k) =>
      if k in g.queues then g.(queues := g.queues[k := g.queues[k] + [u]])
      else g.(queues := g.queues[k := [u]], keys := g.keys + [k])
  }

  lemma QueueForSnoc(lib: UrlLib, links: seq<Url>, u: Url, k: HostKey)
    ensures QueueFor(lib, links + [u], k) == QueueFor(lib, links, k) + (if ClassOf(lib, u) == Candidate(k) then [u] else [])
  {
    assert (links + [u])[..|links|] == links;
  }

  lemma HostOrderSnoc(lib: UrlLib, links: seq<Url>, u: Url)
    ensures !ClassOf(lib, u).Candidate? ==> HostOrder(lib, links + [u]) == HostOrder(lib, links)
    ensures ClassOf(lib, u).Candidate? && ClassOf(lib, u).host in HostOrder(lib, links) ==>
      HostOrder(lib, links + [u]) == HostOrder(lib, links)
    ensures ClassOf(lib, u).Candidate? && ClassOf(lib, u).host !in HostOrder(lib, links) ==>
      HostOrder(lib, links + [u]) == HostOrder(lib, links) + [ClassOf(lib, u).host]
  {
    assert (links + [u])[..|links|] == links;
  }

  lemma {:induction false} QueueForAbsent(lib: UrlLib, links: seq<Url>, k: HostKey)
    requires k !in HostOrder(lib, links)
    ensures QueueFor(lib, links, k) == []
  {
    if links != [] {
      var init := links[..|links| - 1];
      var u := links[|links| - 1];
      assert links == init + [u];
      HostOrderSnoc(lib, init, u);
      QueueForAbsent(lib, init, k);
    }
  }

  /** The links of `links` that the partition files under class `c`. */
  ghost function LinksOfClass(lib: UrlLib, links: seq<Url>, c: LinkClass): set<Url> {
    set u | u in links && ClassOf(lib, u) == c
  }

  /** The map that gives every link of `s` the reason `reason`. */
  ghost function ReasonMap(s: set<Url>, reason: string): map<Url, string> {
    map u | u in s :: reason
  }

  /** The special and broken maps hold exactly the special and invalid links of `links`. */
  ghost predicate MapsDescribe(lib: UrlLib, links: seq<Url>, g: Grouping) {
    && g.special == ReasonMap(LinksOfClass(lib, links, Special), SpecialReason)
    && g.broken == ReasonMap(LinksOfClass(lib, links, Invalid), InvalidReason)
  }

  /** The queues are the per-host candidates of `links`, keyed in first-appearance order. */
  ghost predicate QueuesDescribe(lib: UrlLib, links: seq<Url>, g: Grouping) {
    && g.keys == HostOrder(lib, links)
    && (forall k :: k in g.queues <==> k in g.keys)
    && (forall k :: k in g.queues ==> g.queues[k] == QueueFor(lib, links, k) && |g.queues[k]| > 0)
  }

  lemma LinksOfClassSnoc(lib: UrlLib, links: seq<Url>, u: Url, c: LinkClass)
    ensures LinksOfClass(lib, links + [u], c) == LinksOfClass(lib, links, c) + (if ClassOf(lib, u) == c then {u} else {})
  {
  }

  lemma ReasonMapAdd(s: set<Url>, u: Url, reason: string)
    ensures ReasonMap(s + {u}, reason) == ReasonMap(s, reason)[u := reason]
  {
  }

  lemma StepMaps(lib: UrlLib, links: seq<Url>, g: Grouping, u: Url)
    requires MapsDescribe(lib, links, g)
    ensures MapsDescribe(lib, links + [u], Step(lib, g, u))
  {
    LinksOfClassSnoc(lib, links, u, Special);
    LinksOfClassSnoc(lib, links, u, Invalid);
    var c := ClassOf(lib, u);
    if c == Special {
      ReasonMapAdd(LinksOfClass(lib, links, Special), u, SpecialReason);
    } else if c == Invalid {
      ReasonMapAdd(LinksOfClass(lib, links, Invalid), u, InvalidReason);
    }
  }

  /** Filing a special or invalid link leaves the queues as they were. */
  lemma StepQueuesOther(lib: UrlLib, links: seq<Url>, g: Grouping, u: Url)
    requires QueuesDescribe(lib, links, g)
    requires !ClassOf(lib, u).Candidate?
    ensures QueuesDescribe(lib, links + [u], Step(lib, g, u))
  {
    HostOrderSnoc(lib, links, u);
    forall k | k in g.queues
      ensures g.queues[k] == QueueFor(lib, links + [u], k)
    {
      QueueForSnoc(lib, links, u, k);
    }
  }

  /** Filing a candidate extends its host's queue, or opens one at the end of the key list. */
  lemma StepQueuesCandidate(lib: UrlLib, links: seq<Url>, g: Grouping, u: Url, h: HostKey)
    requires QueuesDescribe(lib, links, g)
    requires ClassOf(lib, u) == Candidate(h)
    ensures QueuesDescribe(lib, links + [u], Step(lib, g, u))
  {
    var g' := Step(lib, g, u);
    HostOrderSnoc(lib, links, u);
    assert forall k :: k in g'.queues <==> k in g'.keys;
    forall k | k in g'.queues
      ensures g'.queues[k] == QueueFor(lib, links + [u], k) && |g'.queues[k]| > 0
    {
      QueueForSnoc(lib, links, u, k);
      if k !in g.queues {
        QueueForAbsent(lib, links, k);
      }
    }
  }

  lemma StepQueues(lib: UrlLib, links: seq<Url>, g: Grouping, u: Url)
    requires QueuesDescribe(lib, links, g)
    ensures QueuesDescribe(lib, links + [u], Step(lib, g, u))
  {
    match ClassOf(lib, u)
    case Candidate(h) => StepQueuesCandidate(lib, links, g, u, h);
    case _ => StepQueuesOther(lib, links, g, u);
  }

  lemma StepCountSpecial(lib: UrlLib, g: Grouping, u: Url)
    requires u !in g.special && ClassOf(lib, u) == Special
    ensures Step(lib, g, u).queues == g.queues && Step(lib, g, u).keys == g.keys
    ensures |Step(lib, g, u).special| == |g.special| + 1 && Step(lib, g, u).broken == g.broken
  {
  }

  lemma StepCountInvalid(lib: UrlLib, g: Grouping, u: Url)
    requires u !in g.broken && ClassOf(lib, u) == Invalid
    ensures Step(lib, g, u).queues == g.queues && Step(lib, g, u).keys == g.keys
    ensures |Step(lib, g, u).broken| == |g.broken| + 1 && Step(lib, g, u).special == g.special
  {
  }

  lemma StepCountCandidate(lib: UrlLib, g: Grouping, u: Url, k: HostKey)
    requires forall k :: k in g.queues <==> k in g.keys
    requires NoDups(g.keys)
    requires ClassOf(lib, u) == Candidate(k)
    ensures Step(lib, g, u).special == g.special && Step(lib, g, u).broken == g.broken
    ensures Backlog(Step(lib, g, u).keys, Step(lib, g, u).queues) == Backlog(g.keys, g.queues) + 1
  {
    var g' := Step(lib, g, u);
    SumWeightsChangeOne(g.keys, Weight(g.queues), Weight(g'.queues), k);
    if k !in g.queues {
      SumWeightsAppend(g.keys, k, Weight(g'.queues));
    }
  }

  lemma StepCount(lib: UrlLib, g: Grouping, u: Url)
    requires u !in g.special && u !in g.broken
    requires forall k :: k in g.queues <==> k in g.keys
    requires NoDups(g.keys)
    ensures var g' := Step(lib, g, u);
      Backlog(g'.keys, g'.queues) + |g'.special| + |g'.broken| == Backlog(g.keys, g.queues) + |g.special| + |g.broken| + 1
  {
    var c := ClassOf(lib, u);
    if c == Special {
      StepCountSpecial(lib, g, u);
    } else if c == Invalid {
      StepCountInvalid(lib, g, u);
    } else {
      StepCountCandidate(lib, g, u, c.host);
    }
  }

  lemma PartitionStep(lib: UrlLib, seen: seq<Url>, g: Grouping, u: Url)
    requires u !in seen
    requires MapsDescribe(lib, seen, g)
    requires QueuesDescribe(lib, seen, g)
    requires Backlog(g.keys, g.queues) + |g.special| + |g.broken| == |seen|
    ensures MapsDescribe(lib, seen + [u], Step(lib, g, u))
    ensures QueuesDescribe(lib, seen + [u], Step(lib, g, u))
    ensures var g' := Step(lib, g, u);
      Backlog(g'.keys, g'.queues) + |g'.special| + |g'.broken| == |seen| + 1
  {
    StepMaps(lib, seen, g, u);
    StepQueues(lib, seen, g, u);
    HostOrderMembers(lib, seen);
    StepCount(lib, g, u);
  }

  /**
   The partition loop. Each link of `links` (in the iteration order of the
   deduplicated set) becomes special, invalid, or the tail of its host's
   queue; the keys are listed in the order the dictionary first saw them.
   */
  function Partition(lib: UrlLib, links: seq<Url>): (g: Grouping)
    requires NoDups(links)
    ensures MapsDescribe(lib, links, g)
    ensures QueuesDescribe(lib, links, g)
    ensures Backlog(g.keys, g.queues) == |links| - |g.special| - |g.broken|
  {
    if links == [] then Grouping(map[], map[], map[], [])
    else
      var seen := links[..|links| - 1];
      var u := links[|links| - 1];
      assert links == seen + [u];
      assert u !in seen by {
        forall j | 0 <= j < |seen| ensures seen[j] != u {
          assert seen[j] == links[j];
        }
      }
      var g := Partition(lib, seen);
      PartitionStep(lib, seen, g, u);
      Step(lib, g, u)
  }
}

=== FILE: numbers.dfy ===
/**
 Decimal rendering of status codes, as Python's f-string `{n}` prints a
 non-negative integer, together with the parser that reads it back.
 */
module Numbers {

  import opened Options

  predicate IsDigit(c: char) {
    '0' <= c <= '9'
  }

  function DigitChar(d: nat): (c: char)
    requires d < 10
    ensures IsDigit(c)
  {
    ['0', '1', '2', '3', '4', '5', '6', '7', '8', '9'][d]
  }

  function DigitValue(c: char): (d: nat)
    requires IsDigit(c)
    ensures d < 10
  {
    (c as int - '0' as int) as nat
  }

  lemma DigitRoundTrip(d: nat)
    requires d < 10
    ensures DigitValue(DigitChar(d)) == d
  {
  }

  /** The shortest decimal numeral of `n` (no leading zeros, "0" for zero). */
  function NatToString(n: nat): (s: string)
    ensures |s| > 0
    ensures forall i :: 0 <= i < |s| ==> IsDigit(s[i])
    ensures s[0] == '0' <==> n == 0
    ensures n == 0 ==> s == "0"
    decreases n
  {
    if n < 10 then [DigitChar(n)] else NatToString(n / 10) + [DigitChar(n % 10)]
  }

  /** Reads a non-empty string of decimal digits; anything else is None. */
  function ParseNat(s: string): (r: Option<nat>)
    ensures r.Some? <==> |s| > 0 && forall i :: 0 <= i < |s| ==> IsDigit(s[i])
    decreases |s|
  {
    if |s| == 0 || !IsDigit(s[|s| - 1]) then None
    else if |s| == 1 then Some(DigitValue(s[0]))
    else
      match ParseNat(s[..|s| - 1])
      case None => None
      case Some(v) => Some(v * 10 + DigitValue(s[|s| - 1]))
  }

  /** Printing a number and reading it back gives the same number. */
  lemma {:induction false} ParseNatToString(n: nat)
    ensures ParseNat(NatToString(n)) == Some(n)
    decreases n
  {
    var s := NatToString(n);
    if n < 10 {
      DigitRoundTrip(n);
    } else {
      var prefix := NatToString(n / 10);
      assert s[..|s| - 1] == prefix;
      assert s[|s| - 1] == DigitChar(n % 10);
      ParseNatToString(n / 10);
      DigitRoundTrip(n % 10);
    }
  }

  /** Distinct numbers print differently, so a printed status code identifies the code. */
  lemma NatToStringInjective(m: nat, n: nat)
    requires NatToString(m) == NatToString(n)
    ensures m == n
  {
    ParseNatToString(m);
    ParseNatToString(n);
  }
}

=== FILE: option.dfy ===
/** The optional value used wherever auditlinks.py has `None`. */
module Options {

  datatype Option<+T> = None | Some(value: T)
}

=== FILE: probe.dfy ===
/**
 Classification of one probed link (auditlinks.py, the `TestResult` enum and
 the request/handling block of the test loop).

 A probe is one GET request; its outcome is a status code or one of seven
 named request failures. A 200 answer on a plain `http` link triggers a
 second, dependent probe of the `https` form of the same link. The pair of
 outcomes decides the finding: none, broken (with a reason), or "no HTTPS"
 (an HTTP link that has, or may have, an HTTPS version).

 The `TestResult` enum of auditlinks.py gives three members the same value "OK" (HTTPOK,
 SPECIALURL and NOHTTPS_HTTPS_CONNECTIONERROR), so Python makes the latter
 two aliases of HTTPOK. Here every result is its own constructor and the
 shared text is only a text.
 */
module Probe {

  import opened Options
  import opened Numbers

  /** The `requests` exceptions the test loop catches, from the most specific to the catch-all. */
  datatype Failure =
    | ChunkedEncodingError
    | ConnectionError
    | ConnectTimeout
    | ContentDecodingError
    | ReadTimeout
    | RequestException
    | TooManyRedirects

  /** What one request yields: a response status code or a failure. */
  datatype Outcome = Status(code: nat) | Failed(failure: Failure)

  /** The result of testing one link: the members of `TestResult` a probe can produce. */
  datatype TestResult =
    | HttpOk                          // HTTPOK: 200, and no second probe is made
    | HttpNok(status: nat)            // HTTPNOK: the first request answered with another status
    | RequestFailed(failure: Failure) // the first request failed
    | HttpsOk                         // NOHTTPS_HTTPS_HTTPOK
    | HttpsNok(status: nat)           // NOHTTPS_HTTPS_HTTPNOK
    | HttpsFailed(failure: Failure)   // NOHTTPS_HTTPS_<failure>: the second request failed

  /** The finding recorded for a tested link, if any. */
  datatype Finding = NoFinding | Broken(reason: string) | NoHttps(reason: string)

  /** The enum's text of a failure of the first request. */
  function FailureText(f: Failure): string {
    match f
    case ChunkedEncodingError => "Chunked encoding error"
    case ConnectionError => "Connection error"
    case ConnectTimeout => "Connect timeout"
    case ContentDecodingError => "Content decoding error"
    case ReadTimeout => "Read timeout"
    case RequestException => "Request exception"
    case TooManyRedirects => "Too many redirects"
  }

  /** The failures of the second request that leave it open whether HTTPS works. */
  predicate Inconclusive(f: Failure) {
    f == ConnectTimeout || f == ReadTimeout || f == RequestException
  }

  const HttpsAvailable := "HTTPS available"
  const AvailableBut := "HTTPS available, but \""
  const MaybeAvailableBut := "HTTPS maybe available, but \""
  const WhenRequested := "\" when requested"
  const HttpPrefix := "HTTP "

  /** The enum member's value (`result.value`). */
  function EnumValue(r: TestResult): string {
    match r
    case HttpOk => "OK"
    case HttpNok(_) => "HTTP non-OK response"
    case RequestFailed(f) => FailureText(f)
    case HttpsOk => HttpsAvailable
    case HttpsNok(_) => AvailableBut + "HTTP non-OK response" + WhenRequested
    case HttpsFailed(f) =>
      if f == ConnectionError then "OK"
      else if Inconclusive(f) then MaybeAvailableBut + FailureText(f) + WhenRequested
      else AvailableBut + FailureText(f) + WhenRequested
  }

  /** The reason text stored for a result (`result_s`): the status replaces the generic non-OK text. */
  function ReasonText(r: TestResult): string {
    match r
    case HttpNok(n) => HttpPrefix + NatToString(n)
    case HttpsNok(n) => AvailableBut + HttpPrefix + NatToString(n) + WhenRequested
    case _ => EnumValue(r)
  }

  /** Whether the member's name starts with "NOHTTPS_". */
  predicate IsNoHttpsMember(r: TestResult) {
    r.HttpsOk? || r.HttpsNok? || r.HttpsFailed?
  }

  /** The request chain: a 200 on a plain-http link consults the HTTPS probe `second`. */
  function Classify(first: Outcome, plainHttp: bool, second: Outcome): (r: TestResult)
    ensures r.RequestFailed? <==> first.Failed?
    ensures r.HttpNok? <==> first.Status? && first.code != 200
    ensures r == HttpOk <==> first == Status(200) && !plainHttp
    // the https probe decides the result exactly after 200 on a plain http link
    ensures IsNoHttpsMember(r) <==> first == Status(200) && plainHttp
    ensures IsNoHttpsMember(r) ==> (r == HttpsOk <==> second == Status(200)) && (r.HttpsFailed? <==> second.Failed?)
    // a failure or a status is carried over from the request that produced it
    ensures r.RequestFailed? ==> first == Failed(r.failure)
    ensures r.HttpNok? ==> first == Status(r.status)
    ensures r.HttpsFailed? ==> second == Failed(r.failure)
    ensures r.HttpsNok? ==> second == Status(r.status)
  {
    match first
    case Failed(f) => RequestFailed(f)
    case Status(code) =>
      if code != 200 then HttpNok(code)
      else if !plainHttp then HttpOk
      else
        match second
        case Failed(f) => HttpsFailed(f)
        case Status(code2) => if code2 == 200 then HttpsOk else HttpsNok(code2)
  }

  /** Which map, if any, a result goes to, and with which text. */
  function Route(r: TestResult): (f: Finding)
    ensures f == NoFinding <==> r == HttpOk || r == HttpsFailed(ConnectionError)
    // the NOHTTPS_ members go to the "no HTTPS" map, the others to the broken map
    ensures f.NoHttps? <==> IsNoHttpsMember(r) && r != HttpsFailed(ConnectionError)
    ensures f.Broken? <==> !IsNoHttpsMember(r) && r != HttpOk
    ensures f != NoFinding ==> f.reason == ReasonText(r)
  {
    if r == HttpOk || r == HttpsFailed(ConnectionError) then NoFinding
    else if IsNoHttpsMember(r) then NoHttps(ReasonText(r))
    else Broken(ReasonText(r))
  }

  /** The finding for a link whose first probe gave `first` and whose HTTPS probe would give `second`. */
  function Judge(first: Outcome, plainHttp: bool, second: Outcome): (v: Finding)
    // a failed first request is broken, with the failure's text as reason
    ensures first.Failed? ==> v == Broken(FailureText(first.failure))
    // a status other than 200 is broken, with reason "HTTP n"
    ensures first.Status? && first.code != 200 ==> v == Broken(HttpPrefix + NatToString(first.code))
    // 200 on a link that is not plain http is fine
    ensures first == Status(200) && !plainHttp ==> v == NoFinding
    // the HTTPS probe is consulted only after 200 on a plain http link
    ensures first == Status(200) && plainHttp ==>
      match second
      case Status(code2) =>
        v == NoHttps(if code2 == 200 then HttpsAvailable
                     else AvailableBut + HttpPrefix + NatToString(code2) + WhenRequested)
      case Failed(f) =>
        v == (if f == ConnectionError then NoFinding
              else if Inconclusive(f) then NoHttps(MaybeAvailableBut + FailureText(f) + WhenRequested)
              else NoHttps(AvailableBut + FailureText(f) + WhenRequested))
    // a broken finding never comes from a successful first request with status 200
    ensures v.Broken? <==> first.Failed? || first.code != 200
  {
    Route(Classify(first, plainHttp, second))
  }

  /** The second outcome matters only when the first request answered 200 on a plain http link. */
  lemma SecondProbeOnlyAfterPlainOk(first: Outcome, plainHttp: bool, second1: Outcome, second2: Outcome)
    requires !(first == Status(200) && plainHttp)
    ensures Judge(first, plainHttp, second1) == Judge(first, plainHttp, second2)
  {
  }

  // Reading a reason text back.

  function FailureFromText(s: string): Option<Failure> {
    if s == "Chunked encoding error" then Some(ChunkedEncodingError)
    else if s == "Connection error" then Some(ConnectionError)
    else if s == "Connect timeout" then Some(ConnectTimeout)
    else if s == "Content decoding error" then Some(ContentDecodingError)
    else if s == "Read timeout" then Some(ReadTimeout)
    else if s == "Request exception" then Some(RequestException)
    else if s == "Too many redirects" then Some(TooManyRedirects)
    else None
  }

  function StatusFromText(s: string): Option<nat> {
    if |s| >= |HttpPrefix| && s[..|HttpPrefix|] == HttpPrefix then ParseNat(s[|HttpPrefix|..]) else None
  }

  /** The text between `prefix` and the closing `" when requested`, if `s` has that shape. */
  function Quoted(s: string, prefix: string): Option<string> {
    if |s| >= |prefix| + |WhenRequested| && s[..|prefix|] == prefix && s[|s| - |WhenRequested|..] == WhenRequested
    then Some(s[|prefix|..|s| - |WhenRequested|])
    else None
  }

  function FailureOrStatus(s: string): Option<Outcome> {
    match FailureFromText(s)
    case Some(f) => Some(Failed(f))
    case None =>
      match StatusFromText(s)
      case Some(n) => Some(Status(n))
      case None => None
  }

  /** The result a recorded finding was made from, read back from its reason text. */
  function Recover(v: Finding): Option<TestResult> {
    match v
    case NoFinding => None
    case Broken(s) =>
      (match FailureOrStatus(s)
       case Some(Failed(f)) => Some(RequestFailed(f))
       case Some(Status(n)) => Some(HttpNok(n))
       case None => None)
    case NoHttps(s) =>
      if s == HttpsAvailable then Some(HttpsOk)
      else
        match Quoted(s, AvailableBut)
        case Some(inner) =>
          (match FailureOrStatus(inner)
           case Some(Failed(f)) => Some(HttpsFailed(f))
           case Some(Status(n)) => Some(HttpsNok(n))
           case None => None)
        case None =>
          match Quoted(s, MaybeAvailableBut)
          case Some(inner) =>
            (match FailureFromText(inner)
             case Some(f) => Some(HttpsFailed(f))
             case None => None)
          case None => None
  }

  lemma FailureTextRoundTrip(f: Failure)
    ensures FailureFromText(FailureText(f)) == Some(f)
    ensures StatusFromText(FailureText(f)) == None
  {
  }

  /** No failure text starts with an `H`, so none is mistaken for a status line. */
  lemma FailureFromTextStatus(s: string)
    requires |s| > 0 && s[0] == 'H'
    ensures FailureFromText(s) == None
  {
  }

  lemma StatusTextRoundTrip(n: nat)
    ensures FailureFromText(HttpPrefix + NatToString(n)) == None
    ensures StatusFromText(HttpPrefix + NatToString(n)) == Some(n)
  {
    var s := HttpPrefix + NatToString(n);
    assert s[0] == 'H';
    FailureFromTextStatus(s);
    assert s[..|HttpPrefix|] == HttpPrefix;
    assert s[|HttpPrefix|..] == NatToString(n);
    ParseNatToString(n);
  }

  lemma QuotedRoundTrip(prefix: string, inner: string)
    ensures Quoted(prefix + inner + WhenRequested, prefix) == Some(inner)
  {
    var s := prefix + inner + WhenRequested;
    assert s[..|prefix|] == prefix;
    assert s[|s| - |WhenRequested|..] == WhenRequested;
    assert s[|prefix|..|s| - |WhenRequested|] == inner;
  }

  /** Exactly the two results auditlinks.py treats as fine produce no finding. */
  lemma NoFindingExactly(r: TestResult)
    ensures Route(r) == NoFinding <==> r == HttpOk || r == HttpsFailed(ConnectionError)
  {
  }

  /**
   The reason texts lose nothing: every recorded finding names the result it
   came from, so the two report files can be read back unambiguously.
   */
  lemma RecoverRoute(r: TestResult)
    requires Route(r) != NoFinding
    ensures Recover(Route(r)) == Some(r)
  {
    match r
    case HttpOk =>
    case HttpNok(n) =>
      StatusTextRoundTrip(n);
    case RequestFailed(f) =>
      FailureTextRoundTrip(f);
    case HttpsOk =>
    case HttpsNok(n) => RecoverHttpsNok(n);
    case HttpsFailed(f) => RecoverHttpsFailed(f);
  }

  lemma StatusOutcome(n: nat)
    ensures FailureOrStatus(HttpPrefix + NatToString(n)) == Some(Status(n))
  {
    StatusTextRoundTrip(n);
  }

  lemma FailureOutcome(f: Failure)
    ensures FailureOrStatus(FailureText(f)) == Some(Failed(f))
  {
    FailureTextRoundTrip(f);
  }

  /** A "HTTPS available, but" text gives back the outcome quoted in it. */
  lemma RecoverAvailableBut(inner: string, o: Outcome)
    requires FailureOrStatus(inner) == Some(o)
    ensures Recover(NoHttps(AvailableBut + inner + WhenRequested)) ==
      Some(if o.Failed? then HttpsFailed(o.failure) else HttpsNok(o.code))
  {
    var s := AvailableBut + inner + WhenRequested;
    assert s != HttpsAvailable by { assert |s| > |HttpsAvailable|; }
    QuotedRoundTrip(AvailableBut, inner);
  }

  /** A "HTTPS maybe available, but" text gives back the failure quoted in it. */
  lemma RecoverMaybeAvailable(inner: string, f: Failure)
    requires FailureFromText(inner) == Some(f)
    ensures Recover(NoHttps(MaybeAvailableBut + inner + WhenRequested)) == Some(HttpsFailed(f))
  {
    var s := MaybeAvailableBut + inner + WhenRequested;
    assert s != HttpsAvailable by { assert s[6] != HttpsAvailable[6]; }
    assert Quoted(s, AvailableBut) == None by { assert s[6] != AvailableBut[6]; }
    QuotedRoundTrip(MaybeAvailableBut, inner);
  }

  lemma RecoverHttpsNok(n: nat)
    ensures Recover(Route(HttpsNok(n))) == Some(HttpsNok(n))
  {
    var inner := HttpPrefix + NatToString(n);
    assert AvailableBut + HttpPrefix + NatToString(n) + WhenRequested == AvailableBut + inner + WhenRequested;
    assert Route(HttpsNok(n)) == NoHttps(AvailableBut + inner + WhenRequested);
    StatusOutcome(n);
    RecoverAvailableBut(inner, Status(n));
  }

  lemma RecoverHttpsFailed(f: Failure)
    requires f != ConnectionError
    ensures Recover(Route(HttpsFailed(f))) == Some(HttpsFailed(f))
  {
    var inner := FailureText(f);
    FailureTextRoundTrip(f);
    if Inconclusive(f) {
      assert Route(HttpsFailed(f)) == NoHttps(MaybeAvailableBut + inner + WhenRequested);
      RecoverMaybeAvailable(inner, f);
    } else {
      assert Route(HttpsFailed(f)) == NoHttps(AvailableBut + inner + WhenRequested);
      FailureOutcome(f);
      RecoverAvailableBut(inner, Failed(f));
    }
  }
}

=== FILE: report.dfy ===
/**
 The text of a result file (auditlinks.py, the block that rewrites the
 "no HTTPS" and "broken" files after each probe): one MediaWiki section per
 page that has at least one finding, listing that page's findings in link
 order.
 */
module Report {

  import opened Links

  /** A wiki page: its title and its external links, in page order. */
  datatype Page = Page(title: string, links: seq<Url>)

  /** `[link] : reason` and a blank line. */
  function EntryText(link: Url, reason: string): string {
    "[" + link + "] : " + reason + "\n\n"
  }

  /** `== [[:title]] ==` and a blank line. */
  function Header(title: string): string {
    "== [[:" + title + "]] ==\n\n"
  }

  /** The entries of the links of one page that have a finding (`to_write`). */
  function Entries(links: seq<Url>, findings: map<Url, string>): string {
    if links == [] then ""
    else (if links[0] in findings then EntryText(links[0], findings[links[0]]) else "") + Entries(links[1..], findings)
  }

  /** A page's section, written only when it has something to list. */
  function PageSection(p: Page, findings: map<Url, string>): string {
    var body := Entries(p.links, findings);
    if body == "" then "" else Header(p.title) + body
  }

  /** The whole file, pages in order. */
  function Render(pages: seq<Page>, findings: map<Url, string>): (r: string)
    // the file is empty exactly when no link of any page has a finding
    ensures r == "" <==> forall i, l :: 0 <= i < |pages| && l in pages[i].links ==> l !in findings
  {
    if pages == [] then ""
    else
      PageShownIff(pages[0], findings);
      assert forall i :: 1 <= i < |pages| ==> pages[i] == pages[1..][i - 1];
      PageSection(pages[0], findings) + Render(pages[1..], findings)
  }

  // The same report as structured data.

  datatype Entry = Entry(link: Url, reason: string)
  datatype Section = Section(title: string, entries: seq<Entry>)

  /** The findings among `links`, in link order, a link listed as often as it occurs. */
  function PageEntries(links: seq<Url>, findings: map<Url, string>): (es: seq<Entry>)
    ensures |es| <= |links|
    ensures forall i :: 0 <= i < |es| ==> es[i].link in findings && es[i].reason == findings[es[i].link]
  {
    if links == [] then []
    else
      var rest := PageEntries(links[1..], findings);
      if links[0] in findings then [Entry(links[0], findings[links[0]])] + rest else rest
  }

  function EntryLinks(es: seq<Entry>): (ls: seq<Url>)
    ensures |ls| == |es|
    ensures forall i :: 0 <= i < |es| ==> ls[i] == es[i].link
  {
    if es == [] then [] else [es[0].link] + EntryLinks(es[1..])
  }

  /** The entries are those links of the page that have a finding. */
  lemma {:induction false} PageEntriesMembers(links: seq<Url>, findings: map<Url, string>)
    ensures forall l :: l in EntryLinks(PageEntries(links, findings)) <==> l in links && l in findings
  {
    if links != [] {
      PageEntriesMembers(links[1..], findings);
      var rest := PageEntries(links[1..], findings);
      assert links == [links[0]] + links[1..];
      if links[0] in findings {
        var e := Entry(links[0], findings[links[0]]);
        assert EntryLinks([e] + rest) == [e.link] + EntryLinks(rest) by {
          assert ([e] + rest)[1..] == rest;
        }
      }
    }
  }

  /** One section per page with at least one finding, in page order. */
  function Listing(pages: seq<Page>, findings: map<Url, string>): (ss: seq<Section>)
    ensures |ss| <= |pages|
    ensures forall i :: 0 <= i < |ss| ==> |ss[i].entries| > 0
  {
    if pages == [] then []
    else
      var es := PageEntries(pages[0].links, findings);
      (if es == [] then [] else [Section(pages[0].title, es)]) + Listing(pages[1..], findings)
  }

  function FormatEntries(es: seq<Entry>): string {
    if es == [] then "" else EntryText(es[0].link, es[0].reason) + FormatEntries(es[1..])
  }

  function Format(ss: seq<Section>): string {
    if ss == [] then "" else Header(ss[0].title) + FormatEntries(ss[0].entries) + Format(ss[1..])
  }

  lemma EntryTextNonEmpty(link: Url, reason: string)
    ensures |EntryText(link, reason)| > 0
  {
  }

  lemma FormatEntriesCons(e: Entry, rest: seq<Entry>)
    ensures FormatEntries([e] + rest) == EntryText(e.link, e.reason) + FormatEntries(rest)
  {
    assert ([e] + rest)[1..] == rest;
  }

  lemma {:induction false} EntriesFormat(links: seq<Url>, findings: map<Url, string>)
    ensures Entries(links, findings) == FormatEntries(PageEntries(links, findings))
    ensures Entries(links, findings) == "" <==> PageEntries(links, findings) == []
  {
    if links != [] {
      EntriesFormat(links[1..], findings);
      var rest := PageEntries(links[1..], findings);
      if links[0] in findings {
        var e := Entry(links[0], findings[links[0]]);
        FormatEntriesCons(e, rest);
        EntryTextNonEmpty(e.link, e.reason);
      }
    }
  }

  /**
   The rendered file is exactly the listing of the findings: a header for
   each page that has at least one, then its entries in link order.
   */
  lemma {:induction false} RenderIsListing(pages: seq<Page>, findings: map<Url, string>)
    ensures Render(pages, findings) == Format(Listing(pages, findings))
  {
    if pages != [] {
      RenderIsListing(pages[1..], findings);
      EntriesFormat(pages[0].links, findings);
      var es := PageEntries(pages[0].links, findings);
      if es != [] {
        var s := Section(pages[0].title, es);
        var rest := Listing(pages[1..], findings);
        assert ([s] + rest)[0] == s;
        assert ([s] + rest)[1..] == rest;
        assert Format([s] + rest) == Header(s.title) + FormatEntries(es) + Format(rest);
      } else {
        assert Listing(pages, findings) == Listing(pages[1..], findings);
      }
    }
  }

  /** A page's section is non-empty exactly when one of its links has a finding. */
  lemma PageShownIff(p: Page, findings: map<Url, string>)
    ensures PageSection(p, findings) != "" <==> exists l :: l in p.links && l in findings
    ensures PageSection(p, findings) != "" ==> PageSection(p, findings)[..|Header(p.title)|] == Header(p.title)
  {
    EntriesFormat(p.links, findings);
    PageEntriesMembers(p.links, findings);
    var es := PageEntries(p.links, findings);
    if es != [] {
      assert EntryLinks(es)[0] in EntryLinks(es);
    }
  }

  lemma AppendAssoc(x: string, y: string, z: string)
    ensures x + (y + z) == (x + y) + z
  {
  }

  /** Pages are rendered independently and in order. */
  lemma {:induction false} RenderAppend(a: seq<Page>, b: seq<Page>, findings: map<Url, string>)
    ensures Render(a + b, findings) == Render(a, findings) + Render(b, findings)
  {
    if a == [] {
      assert a + b == b;
      assert Render(a, findings) + Render(b, findings) == Render(b, findings);
    } else {
      var head := PageSection(a[0], findings);
      var ra, rb := Render(a[1..], findings), Render(b, findings);
      assert Render(a, findings) == head + ra;
      assert (a + b)[0] == a[0];
      assert (a + b)[1..] == a[1..] + b;
      RenderAppend(a[1..], b, findings);
      AppendAssoc(head, ra, rb);
      assert Render(a + b, findings) == head + (ra + rb);
    }
  }
}

=== FILE: scheduler.dfy ===
/**
 The rate-limited wave scheduler (auditlinks.py, the `while True` loop
 that tests the links).

 Each wave walks the host list in order. A host whose last request is less
 than `wait` seconds old is skipped; otherwise the head of its queue is
 probed, the verdict recorded, the result files rewritten, and the host's
 last-request time set to the time read just before the probe. After each
 probe the wave ends early once 1.1 * `wait` seconds have passed since it
 started. After a wave the scheduler stops if every queue is empty;
 otherwise it drops the emptied hosts, stably re-sorts the rest by
 descending queue length and sleeps until the wave has lasted `wait`
 seconds (one host left) or 1.1 * `wait` seconds (several).

 Time is abstract. Every `time.time()` call advances the clock by a
 non-negative amount `drift(tick)` (the request, the file writes, the
 scheduling itself), so readings never decrease; a sleep of `d` seconds
 advances it by exactly `d`.
 */
module Scheduler {

  import opened StableSort
  import opened Links
  import opened Probe

  type Duration = r: real | r >= 0.0

  /** The clock: the last time read or slept to, and how many readings were taken. */
  datatype Clock = Clock(now: real, tick: nat)

  /** Everything outside the scheduler: the URL libraries, the network, the passage of time, the wait time. */
  datatype Env = Env(
    lib: UrlLib,
    answer: Url -> Outcome,      // what a GET request of the URL yields
    drift: nat -> Duration,      // the time that passes before reading number `tick`
    wait: nat)                   // --wait-time, in seconds

  /**
   One probe the scheduler sent: in which wave, to which host, which link,
   when (the reading the due test used), the host's queue length then, and
   the reading taken right after the probe (the one the early-stop test uses).
   */
  datatype Dispatch = Dispatch(wave: nat, key: HostKey, link: Url, time: real, backlog: nat, done: real)

  /**
   The scheduler's state: the host queues, the last-request times, the
   clock, and every probe sent so far. The result files are not part of
   it: they are rewritten after every probe, so their contents at any
   moment follow from the probes made until then (module Audit).
   */
  datatype Sched = Sched(
    queues: map<HostKey, seq<Url>>,
    last: map<HostKey, real>,
    clock: Clock,
    trace: seq<Dispatch>)

  /** One call of `time.time()`. */
  function Tick(c: Clock, drift: nat -> Duration): (c': Clock)
    ensures c'.now >= c.now && c'.tick == c.tick + 1
  {
    Clock(c.now + drift(c.tick), c.tick + 1)
  }

  /** 1.1 times the wait time: the wave length after which a wave stops early. */
  function Margin(wait: nat): real {
    1.1 * wait as real
  }

  /** The links sent to host `k`, in sending order. */
  function LinksTo(ds: seq<Dispatch>, k: HostKey): seq<Url> {
    if ds == [] then []
    else LinksTo(ds[..|ds| - 1], k) + (if ds[|ds| - 1].key == k then [ds[|ds| - 1].link] else [])
  }

  /** Two probes to the same host are at least `wait` seconds apart. */
  ghost predicate RateLimited(ds: seq<Dispatch>, wait: nat) {
    forall m, n :: 0 <= m < n < |ds| && ds[m].key == ds[n].key ==> ds[n].time - ds[m].time >= wait as real
  }

  /** Within one wave, hosts are served in order of non-increasing queue length. */
  ghost predicate WavesOrdered(ds: seq<Dispatch>) {
    forall m, n :: 0 <= m < n < |ds| && ds[m].wave == ds[n].wave ==> ds[m].backlog >= ds[n].backlog
  }

  /**
   The probe of the head of host `k`'s queue at the current time: the link is
   judged and recorded, the host's last-request time set, the link dequeued.
   */
  function Send(env: Env, s: Sched, k: HostKey, wave: nat, done: real): (r: Sched)
    requires k in s.queues && k in s.last && |s.queues[k]| > 0
    ensures r.queues.Keys == s.queues.Keys && r.last.Keys == s.last.Keys
    ensures forall k' :: k' in s.queues && k' != k ==> r.queues[k'] == s.queues[k']
    ensures forall k' :: k' in s.last && k' != k ==> r.last[k'] == s.last[k']
    ensures r.clock == s.clock
    ensures r.queues[k] == s.queues[k][1..] && r.last[k] == s.clock.now
    ensures r.trace == s.trace + [Dispatch(wave, k, s.queues[k][0], s.clock.now, |s.queues[k]|, done)]
  {
    var q := s.queues[k];
    var u := q[0];
    Sched(
      s.queues[k := q[1..]],
      s.last[k := s.clock.now],
      s.clock,
      s.trace + [Dispatch(wave, k, u, s.clock.now, |q|, done)])
  }

  /**
   One turn of the loop over the hosts, at host `k`, in a wave that started
   at `start`: skip the host if its last request is too recent; otherwise
   probe, then read the clock again and report whether the wave must stop.
   */
  function Turn(env: Env, s: Sched, k: HostKey, wave: nat, start: real): (r: (Sched, bool))
    requires k in s.queues && k in s.last && |s.queues[k]| > 0
    ensures r.0.queues.Keys == s.queues.Keys && r.0.last.Keys == s.last.Keys
    ensures forall k' :: k' in s.queues && k' != k ==> r.0.queues[k'] == s.queues[k']
    ensures forall k' :: k' in s.last && k' != k ==> r.0.last[k'] == s.last[k']
    ensures r.0.clock.now >= s.clock.now
  {
    var c := Tick(s.clock, env.drift);
    if c.now - s.last[k] < env.wait as real then
      (s.(clock := c), false)
    else
      var c2 := Tick(c, env.drift);
      var s1 := Send(env, s.(clock := c), k, wave, c2.now);
      (s1.(clock := c2), c2.now - start >= Margin(env.wait))
  }

  // The scheduler's invariants.

  /** `keys` lists the hosts of `init` once each. */
  ghost predicate Covers(init: map<HostKey, seq<Url>>, keys: seq<HostKey>) {
    NoDups(keys) && forall k :: k in init <==> k in keys
  }

  /**
   The queues, relative to the initial queues `init`: each host's probes so
   far followed by its queue make up its initial queue (FIFO), and every
   probe took one link off the backlog.
   */
  ghost predicate Queued(init: map<HostKey, seq<Url>>, keys: seq<HostKey>, s: Sched) {
    && s.queues.Keys == init.Keys
    && (forall k :: k in init ==> LinksTo(s.trace, k) + s.queues[k] == init[k])
    && Backlog(keys, s.queues) + |s.trace| == Backlog(keys, init)
  }

  /**
   The times: each probe's time is at most its host's last-request time,
   probes to one host are `wait` apart, and no last-request time lies in
   the future.
   */
  ghost predicate Timely(env: Env, init: map<HostKey, seq<Url>>, s: Sched) {
    && s.last.Keys == init.Keys
    && (forall m :: 0 <= m < |s.trace| ==> s.trace[m].key in init && s.trace[m].time <= s.last[s.trace[m].key])
    && RateLimited(s.trace, env.wait)
    && (forall k :: k in s.last ==> s.last[k] <= s.clock.now)
  }

  /** What holds of the scheduler's state at every point. */
  ghost predicate Valid(env: Env, init: map<HostKey, seq<Url>>, keys: seq<HostKey>, s: Sched) {
    Queued(init, keys, s) && Timely(env, init, s)
  }

  /** The hosts from position `i` of `order` on are distinct and each has a non-empty queue. */
  ghost predicate Ready(s: Sched, order: seq<HostKey>, i: nat) {
    && NoDups(order)
    && i <= |order|
    && (forall j :: i <= j < |order| ==> order[j] in s.queues && order[j] in s.last && |s.queues[order[j]]| > 0)
  }

  /** The hosts from position `i` on are in order of non-increasing queue length. */
  ghost predicate SortedFrom(s: Sched, order: seq<HostKey>, i: nat) {
    forall a, b :: i <= a < b < |order| && order[a] in s.queues && order[b] in s.queues ==>
      |s.queues[order[a]]| >= |s.queues[order[b]]|
  }

  /**
   Wave `wave` is under way and has visited the hosts before position `i`:
   no probe belongs to a later wave, each wave's probes went out in order of
   non-increasing backlog, and none of this wave's probes had a smaller
   backlog than a host still to be visited.
   */
  ghost predicate InWave(s: Sched, wave: nat, order: seq<HostKey>, i: nat) {
    && (forall m :: 0 <= m < |s.trace| ==> s.trace[m].wave <= wave)
    && WavesOrdered(s.trace)
    && (forall m, j :: 0 <= m < |s.trace| && s.trace[m].wave == wave && i <= j < |order| && order[j] in s.queues ==>
          s.trace[m].backlog >= |s.queues[order[j]]|)
  }

  lemma LinksToSnoc(ds: seq<Dispatch>, d: Dispatch, k: HostKey)
    ensures LinksTo(ds + [d], k) == LinksTo(ds, k) + (if d.key == k then [d.link] else [])
  {
    assert (ds + [d])[..|ds|] == ds;
  }

  lemma {:induction false} LinksToMembers(ds: seq<Dispatch>, k: HostKey)
    ensures forall u :: u in LinksTo(ds, k) <==> exists m :: 0 <= m < |ds| && ds[m].key == k && ds[m].link == u
  {
    if ds != [] {
      var init := ds[..|ds| - 1];
      LinksToMembers(init, k);
      assert forall m :: 0 <= m < |init| ==> init[m] == ds[m];
    }
  }

  /** When the links sent to a host are distinct, no two probes to it carry the same link. */
  lemma {:induction false} LinksToDistinct(ds: seq<Dispatch>, k: HostKey)
    requires NoDups(LinksTo(ds, k))
    ensures forall m, n :: 0 <= m < n < |ds| && ds[m].key == k && ds[n].key == k ==> ds[m].link != ds[n].link
  {
    if ds != [] {
      var init := ds[..|ds| - 1];
      var d := ds[|ds| - 1];
      assert forall m :: 0 <= m < |init| ==> init[m] == ds[m];
      assert LinksTo(ds, k) == LinksTo(init, k) + (if d.key == k then [d.link] else []);
      if d.key == k {
        NoDupsSnoc(LinksTo(init, k), d.link);
        LinksToMembers(init, k);
      } else {
        assert LinksTo(init, k) + [] == LinksTo(init, k);
      }
      LinksToDistinct(init, k);
    }
  }

  /** Moving the clock forward keeps the invariant. */
  lemma AdvanceValid(env: Env, init: map<HostKey, seq<Url>>, keys: seq<HostKey>, s: Sched, c: Clock)
    requires Valid(env, init, keys, s)
    requires c.now >= s.clock.now
    ensures Valid(env, init, keys, s.(clock := c))
  {
  }

  /** The probe's record: the head of `k`'s queue, sent now, with the queue's length and the reading `done` after it. */
  function Sent(s: Sched, k: HostKey, wave: nat, done: real): Dispatch
    requires k in s.queues && |s.queues[k]| > 0
  {
    Dispatch(wave, k, s.queues[k][0], s.clock.now, |s.queues[k]|, done)
  }

  lemma SendTrace(env: Env, s: Sched, k: HostKey, wave: nat, done: real)
    requires k in s.queues && k in s.last && |s.queues[k]| > 0
    ensures Send(env, s, k, wave, done).trace == s.trace + [Sent(s, k, wave, done)]
  {
  }

  lemma SendFifoAt(env: Env, s: Sched, k: HostKey, wave: nat, done: real, k': HostKey, target: seq<Url>)
    requires k in s.queues && k in s.last && |s.queues[k]| > 0 && k' in s.queues
    requires LinksTo(s.trace, k') + s.queues[k'] == target
    ensures LinksTo(Send(env, s, k, wave, done).trace, k') + Send(env, s, k, wave, done).queues[k'] == target
  {
    var q := s.queues[k];
    var d := Sent(s, k, wave, done);
    SendTrace(env, s, k, wave, done);
    LinksToSnoc(s.trace, d, k');
    if k' == k {
      assert Send(env, s, k, wave, done).queues[k] == q[1..];
      assert q == [q[0]] + q[1..];
      assert LinksTo(s.trace, k) + [q[0]] + q[1..] == target;
    }
  }

  lemma SendFifo(env: Env, init: map<HostKey, seq<Url>>, s: Sched, k: HostKey, wave: nat, done: real)
    requires s.queues.Keys == init.Keys
    requires forall k' :: k' in init ==> LinksTo(s.trace, k') + s.queues[k'] == init[k']
    requires k in init && k in s.last && |s.queues[k]| > 0
    ensures forall k' :: k' in init ==> LinksTo(Send(env, s, k, wave, done).trace, k') + Send(env, s, k, wave, done).queues[k'] == init[k']
  {
    forall k' | k' in init
      ensures LinksTo(Send(env, s, k, wave, done).trace, k') + Send(env, s, k, wave, done).queues[k'] == init[k']
    {
      SendFifoAt(env, s, k, wave, done, k', init[k']);
    }
  }

  lemma SendTimely(env: Env, init: map<HostKey, seq<Url>>, s: Sched, k: HostKey, wave: nat, done: real)
    requires Timely(env, init, s)
    requires k in s.queues && k in init && |s.queues[k]| > 0
    requires s.clock.now - s.last[k] >= env.wait as real
    ensures Timely(env, init, Send(env, s, k, wave, done))
  {
    SendTrace(env, s, k, wave, done);
  }

  lemma SendBacklog(env: Env, keys: seq<HostKey>, s: Sched, k: HostKey, wave: nat, done: real)
    requires NoDups(keys) && k in keys
    requires k in s.queues && k in s.last && |s.queues[k]| > 0
    ensures Backlog(keys, Send(env, s, k, wave, done).queues) == Backlog(keys, s.queues) - 1
  {
    var r := Send(env, s, k, wave, done);
    SumWeightsChangeOne(keys, Weight(s.queues), Weight(r.queues), k);
  }

  lemma SendQueued(env: Env, init: map<HostKey, seq<Url>>, keys: seq<HostKey>, s: Sched, k: HostKey, wave: nat, done: real)
    requires Covers(init, keys)
    requires Queued(init, keys, s)
    requires k in init && k in s.last && |s.queues[k]| > 0
    ensures Queued(init, keys, Send(env, s, k, wave, done))
  {
    SendFifo(env, init, s, k, wave, done);
    SendBacklog(env, keys, s, k, wave, done);
  }

  /** A probe to a host whose last request is `wait` old keeps the invariant. */
  lemma SendValid(env: Env, init: map<HostKey, seq<Url>>, keys: seq<HostKey>, s: Sched, k: HostKey, wave: nat, done: real)
    requires Covers(init, keys)
    requires Valid(env, init, keys, s)
    requires k in init && |s.queues[k]| > 0
    requires s.clock.now - s.last[k] >= env.wait as real
    ensures Valid(env, init, keys, Send(env, s, k, wave, done))
  {
    SendQueued(env, init, keys, s, k, wave, done);
    SendTimely(env, init, s, k, wave, done);
  }

  /**
   A host is skipped exactly when, at the time read on arriving at it, its
   last request is less than `wait` old; a skip changes nothing but the clock
   and lets the wave go on. A probed host adds exactly one record, for the
   head of its queue, and the wave stops right after it exactly when 1.1 *
   `wait` seconds have passed since the wave started.
   */
  lemma TurnTrace(env: Env, s: Sched, k: HostKey, wave: nat, start: real)
    requires k in s.queues && k in s.last && |s.queues[k]| > 0
    ensures var r := Turn(env, s, k, wave, start);
      || (r.0.queues == s.queues && r.0.last == s.last && r.0.trace == s.trace && !r.1)
      || (r.0.trace == s.trace + [Dispatch(wave, k, s.queues[k][0], r.0.last[k], |s.queues[k]|, r.0.clock.now)]
          && r.0.last[k] - s.last[k] >= env.wait as real)
    ensures Turn(env, s, k, wave, start).0.trace == s.trace <==> Tick(s.clock, env.drift).now - s.last[k] < env.wait as real
    // a probed host's time, and its probe's, is the reading the due test used
    ensures var r := Turn(env, s, k, wave, start);
      |r.0.trace| == |s.trace| + 1 ==> r.0.last[k] == Tick(s.clock, env.drift).now
    ensures var r := Turn(env, s, k, wave, start);
      |r.0.trace| == |s.trace| + 1 ==> (r.1 <==> r.0.clock.now - start >= Margin(env.wait))
    ensures var r := Turn(env, s, k, wave, start); r.1 ==> r.0.clock.now - start >= Margin(env.wait)
    ensures s.last[k] + env.wait as real <= s.clock.now ==> |Turn(env, s, k, wave, start).0.trace| == |s.trace| + 1
  {
    var c := Tick(s.clock, env.drift);
    if c.now - s.last[k] >= env.wait as real {
      SendTrace(env, s.(clock := c), k, wave, Tick(c, env.drift).now);
    }
  }

  lemma SendTickValid(env: Env, init: map<HostKey, seq<Url>>, keys: seq<HostKey>, s: Sched, k: HostKey, wave: nat, c: Clock)
    requires Covers(init, keys)
    requires Valid(env, init, keys, s)
    requires k in init && |s.queues[k]| > 0
    requires s.clock.now - s.last[k] >= env.wait as real
    requires c.now >= s.clock.now
    ensures Valid(env, init, keys, Send(env, s, k, wave, c.now).(clock := c))
  {
    SendValid(env, init, keys, s, k, wave, c.now);
    AdvanceValid(env, init, keys, Send(env, s, k, wave, c.now), c);
  }

  lemma TurnValid(env: Env, init: map<HostKey, seq<Url>>, keys: seq<HostKey>, s: Sched, k: HostKey, wave: nat, start: real)
    requires Covers(init, keys)
    requires Valid(env, init, keys, s)
    requires k in init && |s.queues[k]| > 0
    ensures Valid(env, init, keys, Turn(env, s, k, wave, start).0)
  {
    var c := Tick(s.clock, env.drift);
    AdvanceValid(env, init, keys, s, c);
    if c.now - s.last[k] >= env.wait as real {
      SendTickValid(env, init, keys, s.(clock := c), k, wave, Tick(c, env.drift));
    }
  }

  lemma TurnInWave(env: Env, s: Sched, order: seq<HostKey>, i: nat, wave: nat, start: real)
    requires Ready(s, order, i) && i < |order|
    requires SortedFrom(s, order, i)
    requires InWave(s, wave, order, i)
    ensures InWave(Turn(env, s, order[i], wave, start).0, wave, order, i + 1)
    ensures SortedFrom(Turn(env, s, order[i], wave, start).0, order, i + 1)
  {
    var k := order[i];
    var r := Turn(env, s, k, wave, start).0;
    TurnTrace(env, s, k, wave, start);
    forall j | i + 1 <= j < |order|
      ensures r.queues[order[j]] == s.queues[order[j]]
    {
      assert order[j] != k;
    }
  }

  /**
   The rest of wave `wave`, from position `i` of the host list `order` on,
   the wave having started at `start`: the state after it, and whether it
   stopped early. A host still to be visited has links waiting, so taking
   the head of its queue is always possible.
   */
  function WaveFrom(env: Env, s: Sched, order: seq<HostKey>, i: nat, wave: nat, start: real): (r: (Sched, bool))
    requires Ready(s, order, i)
    ensures r.0.queues.Keys == s.queues.Keys && r.0.last.Keys == s.last.Keys
    ensures forall k :: k in s.queues && k !in order[i..] ==> r.0.queues[k] == s.queues[k]
    ensures r.0.clock.now >= s.clock.now
    decreases |order| - i
  {
    if i == |order| then (s, false)
    else
      var t := Turn(env, s, order[i], wave, start);
      assert order[i..] == [order[i]] + order[i + 1..];
      assert Ready(t.0, order, i + 1) by {
        forall j | i + 1 <= j < |order|
          ensures t.0.queues[order[j]] == s.queues[order[j]]
        {
          assert order[j] != order[i];
        }
      }
      if t.1 then t else WaveFrom(env, t.0, order, i + 1, wave, start)
  }

  lemma {:induction false} WaveValid(env: Env, init: map<HostKey, seq<Url>>, keys: seq<HostKey>,
                                     s: Sched, order: seq<HostKey>, i: nat, wave: nat, start: real)
    requires Covers(init, keys)
    requires Valid(env, init, keys, s)
    requires Ready(s, order, i)
    ensures Valid(env, init, keys, WaveFrom(env, s, order, i, wave, start).0)
    decreases |order| - i
  {
    if i < |order| {
      var t := Turn(env, s, order[i], wave, start);
      TurnValid(env, init, keys, s, order[i], wave, start);
      if !t.1 {
        WaveValid(env, init, keys, t.0, order, i + 1, wave, start);
      }
    }
  }

  /**
   A wave only appends probes, keeping the earlier ones; one that adds none leaves the last-request
   times alone; one that stops early has lasted 1.1 * `wait` seconds.
   */
  lemma {:induction false} WaveTrace(env: Env, s: Sched, order: seq<HostKey>, i: nat, wave: nat, start: real)
    requires Ready(s, order, i)
    ensures var r := WaveFrom(env, s, order, i, wave, start);
      && s.trace <= r.0.trace
      && (|r.0.trace| == |s.trace| ==> r.0.last == s.last && !r.1)
      && (r.1 ==> r.0.clock.now - start >= Margin(env.wait))
    decreases |order| - i
  {
    if i < |order| {
      var t := Turn(env, s, order[i], wave, start);
      TurnTrace(env, s, order[i], wave, start);
      if !t.1 {
        WaveTrace(env, t.0, order, i + 1, wave, start);
      }
    }
  }

  /** The host list after a turn at position `i` is ready from `i + 1` on. */
  lemma TurnReady(env: Env, s: Sched, order: seq<HostKey>, i: nat, wave: nat, start: real)
    requires Ready(s, order, i) && i < |order|
    ensures Ready(Turn(env, s, order[i], wave, start).0, order, i + 1)
  {
    var t := Turn(env, s, order[i], wave, start);
    forall j | i + 1 <= j < |order|
      ensures t.0.queues[order[j]] == s.queues[order[j]]
    {
      assert order[j] != order[i];
    }
  }

  /**
   A wave walks the whole host list unless it stops early: every host that
   was due when the wave reached position `i` is probed.
   */
  lemma {:induction false} WaveServesDue(env: Env, s: Sched, order: seq<HostKey>, i: nat, wave: nat, start: real)
    requires Ready(s, order, i)
    ensures var r := WaveFrom(env, s, order, i, wave, start);
      !r.1 ==> forall j :: i <= j < |order| && s.last[order[j]] + env.wait as real <= s.clock.now ==>
        exists m :: |s.trace| <= m < |r.0.trace| && r.0.trace[m].key == order[j]
    decreases |order| - i
  {
    if i < |order| {
      var t := Turn(env, s, order[i], wave, start);
      TurnTrace(env, s, order[i], wave, start);
      if !t.1 {
        TurnReady(env, s, order, i, wave, start);
        WaveServesDue(env, t.0, order, i + 1, wave, start);
        WaveTrace(env, t.0, order, i + 1, wave, start);
        var r := WaveFrom(env, t.0, order, i + 1, wave, start);
        assert r == WaveFrom(env, s, order, i, wave, start);
        if !r.1 {
          forall j | i <= j < |order| && s.last[order[j]] + env.wait as real <= s.clock.now
            ensures exists m :: |s.trace| <= m < |r.0.trace| && r.0.trace[m].key == order[j]
          {
            if j == i {
              assert r.0.trace[|s.trace|] == t.0.trace[|s.trace|];
            } else {
              assert order[j] != order[i];
              assert t.0.last[order[j]] + env.wait as real <= t.0.clock.now;
              var m :| |t.0.trace| <= m < |r.0.trace| && r.0.trace[m].key == order[j];
            }
          }
        }
      }
    }
  }

  /** What a turn adds to the trace: nothing, or one probe stamped with the two readings around it. */
  lemma TurnStamps(env: Env, s: Sched, k: HostKey, wave: nat, start: real)
    requires k in s.queues && k in s.last && |s.queues[k]| > 0
    ensures var r := Turn(env, s, k, wave, start);
      |r.0.trace| == |s.trace| + 1 ==>
        && r.0.trace[|s.trace|].time == Tick(s.clock, env.drift).now
        && r.0.trace[|s.trace|].done == r.0.clock.now
        && (r.1 <==> r.0.clock.now - start >= Margin(env.wait))
    ensures var r := Turn(env, s, k, wave, start);
      && s.trace <= r.0.trace
      && |r.0.trace| <= |s.trace| + 1
      && (|r.0.trace| == |s.trace| ==> !r.1)
      && s.clock.now <= Tick(s.clock, env.drift).now <= r.0.clock.now
  {
    var c := Tick(s.clock, env.drift);
    if c.now - s.last[k] >= env.wait as real {
      SendTrace(env, s.(clock := c), k, wave, Tick(c, env.drift).now);
    }
  }

  /**
   Every probe of a wave but its last went out, and was followed by a
   reading, before 1.1 * `wait` seconds had passed since the wave started.
   */
  lemma {:induction false} WaveStopsAtMargin(env: Env, s: Sched, order: seq<HostKey>, i: nat, wave: nat, start: real)
    requires Ready(s, order, i)
    ensures var r := WaveFrom(env, s, order, i, wave, start);
      forall m :: |s.trace| <= m < |r.0.trace| - 1 ==>
        r.0.trace[m].time - start < Margin(env.wait) && r.0.trace[m].done - start < Margin(env.wait)
    decreases |order| - i
  {
    if i < |order| {
      var t := Turn(env, s, order[i], wave, start);
      TurnStamps(env, s, order[i], wave, start);
      if !t.1 {
        TurnReady(env, s, order, i, wave, start);
        WaveStopsAtMargin(env, t.0, order, i + 1, wave, start);
        WaveTrace(env, t.0, order, i + 1, wave, start);
      }
    }
  }

  /** A wave that stops early ends right after the probe that stopped it. */
  lemma {:induction false} WaveStopEnds(env: Env, s: Sched, order: seq<HostKey>, i: nat, wave: nat, start: real)
    requires Ready(s, order, i)
    ensures var r := WaveFrom(env, s, order, i, wave, start);
      r.1 ==> |r.0.trace| > |s.trace| && r.0.trace[|r.0.trace| - 1].done == r.0.clock.now
    decreases |order| - i
  {
    if i < |order| {
      var t := Turn(env, s, order[i], wave, start);
      TurnStamps(env, s, order[i], wave, start);
      if !t.1 {
        TurnReady(env, s, order, i, wave, start);
        WaveStopEnds(env, t.0, order, i + 1, wave, start);
        WaveTrace(env, t.0, order, i + 1, wave, start);
      }
    }
  }

  /** A wave that walks the whole list saw every reading after a probe stay below the margin. */
  lemma {:induction false} WaveWithinMargin(env: Env, s: Sched, order: seq<HostKey>, i: nat, wave: nat, start: real)
    requires Ready(s, order, i)
    ensures var r := WaveFrom(env, s, order, i, wave, start);
      !r.1 ==> forall m :: |s.trace| <= m < |r.0.trace| ==> r.0.trace[m].done - start < Margin(env.wait)
    decreases |order| - i
  {
    if i < |order| {
      var t := Turn(env, s, order[i], wave, start);
      TurnStamps(env, s, order[i], wave, start);
      if !t.1 {
        TurnReady(env, s, order, i, wave, start);
        WaveWithinMargin(env, t.0, order, i + 1, wave, start);
        WaveTrace(env, t.0, order, i + 1, wave, start);
      }
    }
  }

  /**
   A wave stops early exactly when the reading right after its last probe
   is 1.1 * `wait` seconds or more after the wave started.
   */
  lemma WaveStopFlag(env: Env, s: Sched, order: seq<HostKey>, i: nat, wave: nat, start: real)
    requires Ready(s, order, i)
    ensures var r := WaveFrom(env, s, order, i, wave, start);
      r.1 <==> |r.0.trace| > |s.trace| && r.0.trace[|r.0.trace| - 1].done - start >= Margin(env.wait)
  {
    WaveTrace(env, s, order, i, wave, start);
    WaveStopEnds(env, s, order, i, wave, start);
    WaveWithinMargin(env, s, order, i, wave, start);
  }


  /** A wave serves its hosts in order of non-increasing backlog. */
  lemma {:induction false} WaveInWave(env: Env, s: Sched, order: seq<HostKey>, i: nat, wave: nat, start: real)
    requires Ready(s, order, i)
    requires SortedFrom(s, order, i)
    requires InWave(s, wave, order, i)
    ensures InWave(WaveFrom(env, s, order, i, wave, start).0, wave, order, |order|)
    decreases |order| - i
  {
    if i < |order| {
      var t := Turn(env, s, order[i], wave, start);
      TurnInWave(env, s, order, i, wave, start);
      if !t.1 {
        WaveInWave(env, t.0, order, i + 1, wave, start);
      }
    }
  }

  /** A wave whose next host is due sends at least one probe. */
  lemma WaveProgress(env: Env, s: Sched, order: seq<HostKey>, i: nat, wave: nat, start: real)
    requires Ready(s, order, i) && i < |order|
    requires s.last[order[i]] + env.wait as real <= s.clock.now
    ensures |WaveFrom(env, s, order, i, wave, start).0.trace| > |s.trace|
  {
    var t := Turn(env, s, order[i], wave, start);
    TurnTrace(env, s, order[i], wave, start);
    if !t.1 {
      WaveTrace(env, t.0, order, i + 1, wave, start);
    }
  }

  // Between waves.

  /** The hosts of `order` that still have links waiting, in the same order. */
  function KeepPending(order: seq<HostKey>, queues: map<HostKey, seq<Url>>): (r: seq<HostKey>)
    ensures forall k :: k in r <==> k in order && k in queues && |queues[k]| > 0
    ensures NoDups(order) ==> NoDups(r)
  {
    if order == [] then []
    else
      var rest := KeepPending(order[1..], queues);
      assert order == [order[0]] + order[1..];
      if order[0] in queues && |queues[order[0]]| > 0 then [order[0]] + rest else rest
  }

  /** Dropping the emptied hosts does not reorder the hosts of any positive backlog. */
  lemma {:induction false} KeepPendingOfWeight(order: seq<HostKey>, queues: map<HostKey, seq<Url>>, n: nat)
    requires n > 0
    ensures OfWeight(KeepPending(order, queues), Weight(queues), n) == OfWeight(order, Weight(queues), n)
  {
    if order != [] {
      KeepPendingOfWeight(order[1..], queues, n);
      var rest := KeepPending(order[1..], queues);
      if order[0] in queues && |queues[order[0]]| > 0 {
        assert ([order[0]] + rest)[1..] == rest;
      }
    }
  }

  /** The host list of the next wave: the emptied hosts dropped, the rest stably sorted by descending backlog. */
  function Reorder(order: seq<HostKey>, queues: map<HostKey, seq<Url>>): (r: seq<HostKey>)
    ensures forall k :: k in r <==> k in order && k in queues && |queues[k]| > 0
    ensures Descending(r, Weight(queues))
  {
    var kept := KeepPending(order, queues);
    var r := SortDescending(kept, Weight(queues));
    assert forall k :: k in r <==> k in multiset(kept);
    r
  }

  lemma ReorderNoDups(order: seq<HostKey>, queues: map<HostKey, seq<Url>>)
    requires NoDups(order)
    ensures NoDups(Reorder(order, queues))
  {
    NoDupsPermutation(KeepPending(order, queues), Reorder(order, queues));
  }

  /**
   Stability of the re-sort: hosts left with the same backlog keep the order
   they had in the previous wave.
   */
  lemma ReorderIsStable(order: seq<HostKey>, queues: map<HostKey, seq<Url>>, n: nat)
    requires n > 0
    ensures OfWeight(Reorder(order, queues), Weight(queues), n) == OfWeight(order, Weight(queues), n)
  {
    SortIsStable(KeepPending(order, queues), Weight(queues), n);
    KeepPendingOfWeight(order, queues, n);
  }

  /**
   The sleep after a wave that has lasted `elapsed` seconds, when
   `hostsLeft` hosts remain: enough for the wave to last `wait` seconds
   with one host left and 1.1 * `wait` with several, and no more.
   */
  function Pause(hostsLeft: nat, elapsed: real, wait: nat): (d: real)
    ensures d >= 0.0
    ensures elapsed + d >= wait as real
    ensures hostsLeft != 1 ==> elapsed + d >= Margin(wait)
    ensures d > 0.0 ==> elapsed + d == (if hostsLeft == 1 then wait as real else Margin(wait))
  {
    var target := if hostsLeft == 1 then wait as real else Margin(wait);
    if elapsed < target then target - elapsed else 0.0
  }

  lemma DescendingSortedFrom(s: Sched, order: seq<HostKey>)
    requires Descending(order, Weight(s.queues))
    ensures SortedFrom(s, order, 0)
  {
    forall a, b | 0 <= a < b < |order| && order[a] in s.queues && order[b] in s.queues
      ensures |s.queues[order[a]]| >= |s.queues[order[b]]|
    {
      assert Weight(s.queues)(order[a]) >= Weight(s.queues)(order[b]);
    }
  }

  lemma {:induction false} BacklogEmpty(keys: seq<HostKey>, queues: map<HostKey, seq<Url>>)
    requires forall k :: k in keys && k in queues ==> queues[k] == []
    ensures Backlog(keys, queues) == 0
  {
    if keys != [] {
      assert forall k :: k in keys[1..] ==> k in keys;
      BacklogEmpty(keys[1..], queues);
    }
  }

  /** One wave from state `s` over the host list `order`: the state after it, and the time it started. */
  function RunWave(env: Env, s: Sched, order: seq<HostKey>, wave: nat): (r: (Sched, real))
    requires Ready(s, order, 0)
    // the wave starts at a fresh reading and ends no earlier
    ensures s.clock.now <= r.1 <= r.0.clock.now
    // it keeps the earlier probes and the set of hosts
    ensures s.trace <= r.0.trace
    ensures r.0.queues.Keys == s.queues.Keys
  {
    var c := Tick(s.clock, env.drift);
    WaveTrace(env, s.(clock := c), order, 0, wave, c.now);
    (WaveFrom(env, s.(clock := c), order, 0, wave, c.now).0, c.now)
  }

  /** The pause after a wave that started at `start`, before a wave over `next`. */
  function Rest(env: Env, r: Sched, next: seq<HostKey>, start: real): (s: Sched)
    ensures s.clock.now >= r.clock.now
    ensures s.clock.now - start >= env.wait as real
    // the wave is made to last `wait` (one host left) or 1.1 * `wait` (several), and no longer
    ensures var c := Tick(r.clock, env.drift).now;
      var target := if |next| == 1 then env.wait as real else Margin(env.wait);
      s.clock.now == (if c - start < target then start + target else c)
  {
    var c := Tick(r.clock, env.drift);
    r.(clock := Clock(c.now + Pause(|next|, c.now - start, env.wait), c.tick))
  }

  /**
   The test loop's invariant before wave `wave` over the host list
   `order`: the scheduler invariant; the listed hosts are distinct, pending
   and sorted by descending backlog; every unlisted host is done; earlier
   waves were each served in backlog order; and, when the previous wave
   sent nothing, every host is due.
   */
  ghost predicate LoopInv(env: Env, init: map<HostKey, seq<Url>>, keys: seq<HostKey>,
                          s: Sched, order: seq<HostKey>, wave: nat, sent: bool) {
    && Valid(env, init, keys, s)
    && Ready(s, order, 0)
    && Descending(order, Weight(s.queues))
    && (forall k :: k in s.queues && k !in order ==> s.queues[k] == [])
    && (forall m :: 0 <= m < |s.trace| ==> s.trace[m].wave < wave)
    && WavesOrdered(s.trace)
    && (!sent ==> forall k :: k in s.last ==> s.last[k] + env.wait as real <= s.clock.now)
  }

  /** The measure that decreases from wave to wave. */
  function Remaining(keys: seq<HostKey>, s: Sched, sent: bool): nat {
    2 * Backlog(keys, s.queues) + (if sent then 1 else 0)
  }

  /** The state before the first wave: full queues, nothing sent, every host last contacted at time zero. */
  function Initial(init: map<HostKey, seq<Url>>, clock: Clock): Sched {
    Sched(init, map k | k in init :: 0.0, clock, [])
  }

  lemma InitialValid(env: Env, init: map<HostKey, seq<Url>>, keys: seq<HostKey>, clock: Clock)
    requires clock.now >= 0.0
    ensures Valid(env, init, keys, Initial(init, clock))
  {
    var s := Initial(init, clock);
    assert Queued(init, keys, s) by {
      forall k | k in init
        ensures LinksTo(s.trace, k) + s.queues[k] == init[k]
      {
        assert LinksTo([], k) == [];
      }
    }
  }

  lemma LoopStart(env: Env, init: map<HostKey, seq<Url>>, keys: seq<HostKey>, clock: Clock)
    requires Covers(init, keys)
    requires forall k :: k in init ==> |init[k]| > 0
    requires clock.now >= 0.0
    ensures LoopInv(env, init, keys, Initial(init, clock), SortDescending(keys, Weight(init)), 0, true)
  {
    var order := SortDescending(keys, Weight(init));
    var s := Initial(init, clock);
    InitialValid(env, init, keys, clock);
    NoDupsPermutation(keys, order);
    assert Initial(init, clock).queues == init;
    assert forall k :: k in init ==> k in s.last;
    forall j | 0 <= j < |order|
      ensures order[j] in init
    {
      assert order[j] in multiset(order);
      assert order[j] in multiset(keys);
    }
    forall k | k in init
      ensures k in order
    {
      assert k in multiset(keys);
      assert k in multiset(order);
    }
  }

  /** The facts about one wave that the loop needs. */
  lemma WaveFacts(env: Env, init: map<HostKey, seq<Url>>, keys: seq<HostKey>,
                  s: Sched, order: seq<HostKey>, wave: nat, sent: bool)
    requires Covers(init, keys)
    requires LoopInv(env, init, keys, s, order, wave, sent)
    ensures var (r, start) := RunWave(env, s, order, wave);
      && Valid(env, init, keys, r)
      && InWave(r, wave, order, |order|)
      && r.queues.Keys == s.queues.Keys
      && (forall k :: k in s.queues && k !in order ==> r.queues[k] == s.queues[k])
      && s.clock.now <= start <= r.clock.now
      && |r.trace| >= |s.trace|
      && (|r.trace| == |s.trace| ==> r.last == s.last)
      && (!sent && order != [] ==> |r.trace| > |s.trace|)
  {
    var c := Tick(s.clock, env.drift);
    var s0 := s.(clock := c);
    AdvanceValid(env, init, keys, s, c);
    DescendingSortedFrom(s0, order);
    WaveValid(env, init, keys, s0, order, 0, wave, c.now);
    WaveTrace(env, s0, order, 0, wave, c.now);
    WaveInWave(env, s0, order, 0, wave, c.now);
    assert order[0..] == order;
    if !sent && order != [] {
      WaveProgress(env, s0, order, 0, wave, c.now);
    }
  }

  /** The pause keeps the scheduler invariant, and after a wave that sent nothing every host is due. */
  lemma RestFacts(env: Env, init: map<HostKey, seq<Url>>, keys: seq<HostKey>,
                  s: Sched, r: Sched, next: seq<HostKey>, start: real)
    requires Valid(env, init, keys, s) && Valid(env, init, keys, r)
    requires s.clock.now <= start
    requires |r.trace| == |s.trace| ==> r.last == s.last
    ensures Valid(env, init, keys, Rest(env, r, next, start))
    ensures Rest(env, r, next, start).queues == r.queues && Rest(env, r, next, start).trace == r.trace
    ensures Rest(env, r, next, start).last == r.last
    ensures |r.trace| == |s.trace| ==>
      forall k :: k in r.last ==> r.last[k] + env.wait as real <= Rest(env, r, next, start).clock.now
  {
    AdvanceValid(env, init, keys, r, Rest(env, r, next, start).clock);
  }

  /** A wave that leaves work, followed by the pause, re-establishes the invariant and decreases the measure. */
  lemma LoopStep(env: Env, init: map<HostKey, seq<Url>>, keys: seq<HostKey>,
                 s: Sched, order: seq<HostKey>, wave: nat, sent: bool)
    requires Covers(init, keys)
    requires LoopInv(env, init, keys, s, order, wave, sent)
    requires var r := RunWave(env, s, order, wave).0; exists k :: k in order && r.queues[k] != []
    ensures var (r, start) := RunWave(env, s, order, wave);
      var next := Reorder(order, r.queues);
      var sent' := |r.trace| > |s.trace|;
      && LoopInv(env, init, keys, Rest(env, r, next, start), next, wave + 1, sent')
      && Remaining(keys, Rest(env, r, next, start), sent') < Remaining(keys, s, sent)
  {
    var (r, start) := RunWave(env, s, order, wave);
    WaveFacts(env, init, keys, s, order, wave, sent);
    var next := Reorder(order, r.queues);
    ReorderNoDups(order, r.queues);
    var s' := Rest(env, r, next, start);
    RestFacts(env, init, keys, s, r, next, start);
    NextListed(s, r, order, next);
  }

  /** The next host list holds exactly the pending hosts, each with a queue and a last-request time. */
  lemma NextListed(s: Sched, r: Sched, order: seq<HostKey>, next: seq<HostKey>)
    requires r.queues.Keys == s.queues.Keys && r.last.Keys == r.queues.Keys
    requires forall k :: k in s.queues && k !in order ==> r.queues[k] == s.queues[k] == []
    requires forall k :: k in next <==> k in order && k in r.queues && |r.queues[k]| > 0
    requires NoDups(next)
    ensures Ready(r, next, 0)
    ensures forall k :: k in r.queues && k !in next ==> r.queues[k] == []
  {
    forall k | k in r.queues && k !in next
      ensures r.queues[k] == []
    {
      if k in order {
        assert |r.queues[k]| == 0;
      }
    }
  }

  /** A wave that empties every listed queue ends the loop with everything probed. */
  lemma LoopEnd(env: Env, init: map<HostKey, seq<Url>>, keys: seq<HostKey>,
                s: Sched, order: seq<HostKey>, wave: nat, sent: bool)
    requires Covers(init, keys)
    requires LoopInv(env, init, keys, s, order, wave, sent)
    requires var r := RunWave(env, s, order, wave).0; forall k :: k in order ==> r.queues[k] == []
    ensures var r := RunWave(env, s, order, wave).0;
      && Valid(env, init, keys, r)
      && (forall k :: k in init ==> r.queues[k] == [] && LinksTo(r.trace, k) == init[k])
      && |r.trace| == Backlog(keys, init)
      && WavesOrdered(r.trace)
  {
    var r := RunWave(env, s, order, wave).0;
    WaveFacts(env, init, keys, s, order, wave, sent);
    BacklogEmpty(keys, r.queues);
  }

  /**
   The test loop: waves until every queue is empty. Starting from queues
   `init` (each host's candidates, none empty) with nothing sent yet, it
   probes every link exactly once, in each host's queue order, never two
   links of one host less than `wait` seconds apart, and within each wave
   serves hosts in order of non-increasing backlog.
   */
  method Schedule(env: Env, init: map<HostKey, seq<Url>>, keys: seq<HostKey>, clock: Clock) returns (s: Sched)
    requires Covers(init, keys)
    requires forall k :: k in init ==> |init[k]| > 0
    requires clock.now >= 0.0
    ensures forall m :: 0 <= m < |s.trace| ==> s.trace[m].key in init
    ensures forall k :: k in init ==> k in s.queues && s.queues[k] == [] && LinksTo(s.trace, k) == init[k]
    ensures |s.trace| == Backlog(keys, init)
    ensures RateLimited(s.trace, env.wait)
    ensures WavesOrdered(s.trace)
  {
    var order := SortDescending(keys, Weight(init));
    s := Initial(init, clock);
    var wave := 0;
    var sent := true;
    LoopStart(env, init, keys, clock);
    while true
      invariant LoopInv(env, init, keys, s, order, wave, sent)
      decreases Remaining(keys, s, sent)
    {
      var (r, start) := RunWave(env, s, order, wave);
      if forall k | k in order :: r.queues[k] == [] {
        LoopEnd(env, init, keys, s, order, wave, sent);
        s := r;
        break;
      }
      var next := Reorder(order, r.queues);
      LoopStep(env, init, keys, s, order, wave, sent);
      sent := |r.trace| > |s.trace|;
      s := Rest(env, r, next, start);
      order := next;
      wave := wave + 1;
    }
  }
}

=== FILE: stable_sort.dfy ===
/**
 Python's `list.sort(key=..., reverse=True)`: a stable sort by descending
 key. Equal keys keep their input order (reverse=True does not reverse
 ties), which the scheduler relies on for fairness between equally loaded
 hosts.
 */
module StableSort {

  /** Non-increasing by weight: the heaviest element first. */
  ghost predicate Descending<T>(s: seq<T>, w: T -> nat) {
    forall i, j :: 0 <= i < j < |s| ==> w(s[i]) >= w(s[j])
  }

  /** The elements of `s` whose weight is exactly `n`, in their order in `s`. */
  function OfWeight<T>(s: seq<T>, w: T -> nat, n: nat): seq<T> {
    if s == [] then [] else (if w(s[0]) == n then [s[0]] else []) + OfWeight(s[1..], w, n)
  }

  function SumWeights<T>(s: seq<T>, w: T -> nat): nat {
    if s == [] then 0 else w(s[0]) + SumWeights(s[1..], w)
  }

  /** Places `x` in front of the first element of `t` that is not heavier than it. */
  function Insert<T>(x: T, t: seq<T>, w: T -> nat): (r: seq<T>)
    requires Descending(t, w)
    ensures Descending(r, w)
    ensures multiset(r) == multiset(t) + multiset{x}
  {
    if t == [] || w(x) >= w(t[0]) then
      [x] + t
    else
      var rest := Insert(x, t[1..], w);
      InsertBehind(x, t, rest, w);
      [t[0]] + rest
  }

  /** The recursive case of `Insert`: the head of `t` stays in front of the rest. */
  lemma InsertBehind<T>(x: T, t: seq<T>, rest: seq<T>, w: T -> nat)
    requires t != [] && w(x) < w(t[0])
    requires Descending(t, w) && Descending(rest, w)
    requires multiset(rest) == multiset(t[1..]) + multiset{x}
    ensures Descending([t[0]] + rest, w)
    ensures multiset([t[0]] + rest) == multiset(t) + multiset{x}
  {
    assert t == [t[0]] + t[1..];
    forall i | 0 <= i < |rest| ensures w(t[0]) >= w(rest[i]) {
      assert rest[i] in multiset(rest);
      if rest[i] != x {
        assert rest[i] in multiset(t[1..]);
        var j :| 0 <= j < |t[1..]| && t[1..][j] == rest[i];
        assert t[j + 1] == rest[i];
      }
    }
    ConsDescending(t[0], rest, w);
  }

  lemma ConsDescending<T>(y: T, r: seq<T>, w: T -> nat)
    requires Descending(r, w)
    requires forall i :: 0 <= i < |r| ==> w(y) >= w(r[i])
    ensures Descending([y] + r, w)
  {
    var s := [y] + r;
    forall i, j | 0 <= i < j < |s|
      ensures w(s[i]) >= w(s[j])
    {
      assert s[j] == r[j - 1];
      if i > 0 {
        assert s[i] == r[i - 1];
      }
    }
  }

  /** Inserting adds the weight of the new element to the total. */
  lemma {:induction false} InsertSum<T>(x: T, t: seq<T>, w: T -> nat)
    requires Descending(t, w)
    ensures SumWeights(Insert(x, t, w), w) == w(x) + SumWeights(t, w)
  {
    if t == [] || w(x) >= w(t[0]) {
      assert ([x] + t)[1..] == t;
    } else {
      var rest := Insert(x, t[1..], w);
      assert Insert(x, t, w) == [t[0]] + rest;
      InsertSum(x, t[1..], w);
      assert ([t[0]] + rest)[1..] == rest;
    }
  }

  /** Insertion sort by descending weight. */
  function SortDescending<T>(s: seq<T>, w: T -> nat): (r: seq<T>)
    ensures Descending(r, w)
    ensures multiset(r) == multiset(s)
    ensures SumWeights(r, w) == SumWeights(s, w)
  {
    if s == [] then []
    else
      assert s == [s[0]] + s[1..];
      var sorted := SortDescending(s[1..], w);
      InsertSum(s[0], sorted, w);
      Insert(s[0], sorted, w)
  }

  lemma {:induction false} InsertOfWeight<T>(x: T, t: seq<T>, w: T -> nat, n: nat)
    requires Descending(t, w)
    ensures OfWeight(Insert(x, t, w), w, n) == (if w(x) == n then [x] else []) + OfWeight(t, w, n)
  {
    if t == [] || w(x) >= w(t[0]) {
      assert ([x] + t)[1..] == t;
    } else {
      var rest := Insert(x, t[1..], w);
      assert Insert(x, t, w) == [t[0]] + rest;
      InsertOfWeight(x, t[1..], w, n);
      assert ([t[0]] + rest)[1..] == rest;
      var head := if w(t[0]) == n then [t[0]] else [];
      var mine := if w(x) == n then [x] else [];
      assert OfWeight([t[0]] + rest, w, n) == head + OfWeight(rest, w, n);
      assert OfWeight(t, w, n) == head + OfWeight(t[1..], w, n);
      if head == [] {
        assert head + (mine + OfWeight(t[1..], w, n)) == mine + OfWeight(t[1..], w, n);
        assert mine + (head + OfWeight(t[1..], w, n)) == mine + OfWeight(t[1..], w, n);
      } else {
        assert mine == [];
        assert mine + OfWeight(t[1..], w, n) == OfWeight(t[1..], w, n);
        assert mine + (head + OfWeight(t[1..], w, n)) == head + OfWeight(t[1..], w, n);
      }
    }
  }

  /** Stability: among elements of equal weight the sorted order is the input order. */
  lemma {:induction false} SortIsStable<T>(s: seq<T>, w: T -> nat, n: nat)
    ensures OfWeight(SortDescending(s, w), w, n) == OfWeight(s, w, n)
  {
    if s != [] {
      SortIsStable(s[1..], w, n);
      InsertOfWeight(s[0], SortDescending(s[1..], w), w, n);
    }
  }

  /** No element occurs twice. */
  ghost predicate NoDups<T>(s: seq<T>) {
    forall i, j :: 0 <= i < j < |s| ==> s[i] != s[j]
  }

  lemma {:induction false} SumWeightsAppend<T>(s: seq<T>, x: T, w: T -> nat)
    ensures SumWeights(s + [x], w) == SumWeights(s, w) + w(x)
  {
    if s != [] {
      assert (s + [x])[1..] == s[1..] + [x];
      SumWeightsAppend(s[1..], x, w);
    }
  }

  /** Changing the weight of one element that occurs once changes the sum by the difference. */
  lemma {:induction false} SumWeightsChangeOne<T>(s: seq<T>, w: T -> nat, w': T -> nat, x: T)
    requires NoDups(s)
    requires forall y :: y != x ==> w'(y) == w(y)
    ensures x in s ==> SumWeights(s, w') == SumWeights(s, w) - w(x) + w'(x)
    ensures x !in s ==> SumWeights(s, w') == SumWeights(s, w)
  {
    if s != [] {
      SumWeightsChangeOne(s[1..], w, w', x);
    }
  }

  lemma {:induction false} NoDupsCount<T>(s: seq<T>, x: T)
    requires NoDups(s)
    ensures multiset(s)[x] <= 1
  {
    if s != [] {
      assert s == [s[0]] + s[1..];
      NoDupsCount(s[1..], x);
      if s[0] == x {
        assert x !in s[1..];
      }
    }
  }

  lemma RepeatCount<T>(t: seq<T>, i: nat, j: nat)
    requires i < j < |t| && t[i] == t[j]
    ensures multiset(t)[t[i]] >= 2
  {
    assert t == t[..i] + [t[i]] + t[i + 1..j] + [t[j]] + t[j + 1..];
  }

  /** A rearrangement of a list without repetitions has none either. */
  lemma NoDupsPermutation<T>(s: seq<T>, t: seq<T>)
    requires NoDups(s) && multiset(s) == multiset(t)
    ensures NoDups(t)
  {
    forall i, j | 0 <= i < j < |t|
      ensures t[i] != t[j]
    {
      NoDupsCount(s, t[i]);
      if t[i] == t[j] {
        RepeatCount(t, i, j);
      }
    }
  }

  lemma NoDupsSnoc<T>(s: seq<T>, x: T)
    ensures NoDups(s + [x]) <==> NoDups(s) && x !in s
  {
    var t := s + [x];
    assert forall i :: 0 <= i < |s| ==> t[i] == s[i];
    if NoDups(t) {
      forall i | 0 <= i < |s|
        ensures s[i] != x
      {
        assert t[i] != t[|s|];
      }
    }
    if NoDups(s) && x !in s {
      forall i, j | 0 <= i < j < |t|
        ensures t[i] != t[j]
      {
        if j == |s| {
          assert t[i] in s;
        }
      }
    }
  }
}
